=== FILE: README.md ===
# Lazylyst action dispatcher and its rules, in Dafny

Lazylyst is a waveform-review GUI. Everything the user can do is an
*action*: a named function with input keys, optional keyword arguments and
return keys. An action runs when a key is pressed or a timer fires. Passive
actions follow it through their trigger lists. Values flow through *hot
variables*, which are shared state with a declared type and an optional
sanity check, and through read-mostly *preferences*. This project models:

- **Dispatcher** (`dispatcher.dfy`, lemmas in `dispatcher_props.dfy`):
  - `processAction`, which toggles a timer for a timed action and runs an
    untimed one;
  - `runActiveAction` and `collectActQueue`, which build the queue of
    before-passives, the active action and after-passives;
  - `executeAction`, which resolves inputs from hot variables and then
    preferences, unpacks the returns, checks `$pass`, types and sanity
    checks, then commits all returns or none;
  - `testReturnType`;
  - `stopTimedAction`.
- **Pick-file IDs** (`pick_files.dfy`): the `fill` and `next` ID styles of
  `addPickFile`, and the zero-padded `<id>_<time>.picks` name with its
  width copied from the first existing file.
- **Paging** (`paging.dfy`): `updateCurPage` and `tabCurPage`, with
  Python 2 floor division written out.
- **Picks** (`picks.dfy`):
  - `remUnknownPickTypes`;
  - `remExcessPicks`, which keeps the newest `max` picks per (station,
    type).
- **Preferences** (`prefs.dfy`, `pen_table.dfy`):
  - `LineEditDialog.lineEditValue`;
  - `Pref.update` and `Pref.getVal`;
  - the custom pen table edits `updateItemText`, `insertPen` and
    `deletePen`, plus the colour edit.
- **Example plugins** (`plugins.dfy`): `togglePickMode`, `goToPage`,
  `toggleTraceColor`, `alternateTraceColor`, `alternateStaColorAssign` and
  `toggleTestSources`.

Supporting modules:
- `basics.dfy`: `Option`, `Result` and Python exception kinds.
- `values.dfy`: dynamic Python values and their runtime types.
- `numerals.dfy`: `int()`, `float()`, `str()` and `zfill`.
- `lex.dfy`: Python 2 string order and `sorted`.

An exception the source would raise becomes an `Err` result, or in the
dispatcher a `Raised` outcome that abandons the rest of the action queue.
Widgets, timers, files and user functions become parameters:
- the action function is an `invoke` parameter;
- a hot variable's sanity check is a `check` parameter;
- the focused station and the visible time range are values passed in;
- dialog replies are `Reply` values.

## Model

| member | source | states |
|---|---|---|
| Dispatcher.TestReturnType | Lazylyst.py:217-224 | a return type is accepted exactly when it equals the wanted type, or when str is wanted and a numpy string came back |
| Dispatcher.Resolve | Lazylyst.py:156-162 | an input key is read from the hot variables first, then from the preferences, except `stream`, which only a hot variable can supply; a key found in neither raises KeyError |
| Dispatcher.ResolveInputs | Lazylyst.py:154-162 | the input list lines up position by position with the resolved keys, and resolution fails exactly when one key fails |
| Dispatcher.Unpack | Lazylyst.py:171-178 | a single return key takes the whole returned value as its one slot; with several keys a tuple or list supplies its items in order, an array its rows, a string its characters, and a dictionary only its size; None, a number, a bool or another object cannot be unpacked |
| DispatcherProps.SequenceReturnsLikeTuple | Lazylyst.py:171-210 | with several return keys, a returned list or array is validated and committed item by item exactly like a tuple of the same items |
| Values.TypeOf | Lazylyst.py:186 | `type(v)`: an integer from a literal or `int` arithmetic is `int` within `sys.maxint` and is promoted to `long` beyond it; a value made as a `long` (`4L`) is a `long` whatever its size |
| DispatcherProps.IntSlotRefusesLong | Lazylyst.py:184-190 | an `int` hot variable accepts only machine integers; a `long`, whether made as one (`4L`) or promoted beyond `sys.maxint`, fails the type test and the return is refused |
| Dispatcher.Validate | Lazylyst.py:182-197 | validation rejects exactly when some non-`$pass` slot has a wrong type or fails its check; it stops at the first unknown return key; the reports are those of the bad slots before that point |
| Dispatcher.ValidationMeaning | Lazylyst.py:182-197 | the outcome of the validation loop means: every return key is a hot variable, rejection iff some slot is rejected, every rejected slot is reported, and no report when all are accepted |
| Dispatcher.Commit | Lazylyst.py:204-210 | committing returns never adds or removes a hot variable and never changes a declared type |
| Dispatcher.CommitLeavesOthers | Lazylyst.py:204-210 | a hot variable whose every return slot is `$pass`, or that has none, keeps its value |
| Dispatcher.CommitLastWriteWins | Lazylyst.py:204-210 | a key returned several times ends up with the last non-`$pass` value in return order |
| Dispatcher.CommitWritesOnlySlots | Lazylyst.py:204-210 | every hot variable ends either unchanged or holding one of the non-`$pass` values returned for it |
| Dispatcher.Written | Lazylyst.py:204-210 | the keys whose update hooks fire are exactly the return keys with a non-`$pass` value |
| Dispatcher.WrittenOne | Lazylyst.py:206-210 | one slot fires its key's hook exactly when its value is not `$pass` |
| Dispatcher.WrittenAppend | Lazylyst.py:204-210 | hooks fire slot by slot in return order: the list for a concatenated return list is the concatenation of the lists for its parts, so every non-`$pass` slot fires once, in order |
| Dispatcher.StopTimedAction | Lazylyst.py:228-231 | stopping succeeds exactly when the action's timer is running, and removes exactly that timer; otherwise KeyError |
| Dispatcher.ApplyReturns | Lazylyst.py:164-213 | the return phase of executeAction. No return keys: the state is unchanged, and a report is made iff the value is not None. Several keys and a value without a length (None, a number): TypeError. A dict of the right size: KeyError at `returnVals[0]`. Wrong return count: one report, nothing changed. An unknown return key: KeyError. All slots accepted: the commit of every non-`$pass` slot. A rejected slot: no hot variable changes, each rejected slot is reported, and a timed action's timer is stopped, which raises if it was not running. Preferences and the hot-variable schema never change |
| Dispatcher.ExecuteAction | Lazylyst.py:149-213 | an action without a function does nothing; a missing input raises that KeyError with no report; otherwise the function's result on the resolved inputs and the optional arguments goes through the return phase (ApplyReturns); preferences and the schema are kept, timers only shrink and only for a timed action, and an action without returns leaves the state unchanged |
| Dispatcher.Side | Lazylyst.py:139-145 | each passive in a side list names the active tag in its triggers and has the matching beforeTrigger flag |
| Dispatcher.SideMembers | Lazylyst.py:139-145 | an action is in a side list exactly when it is a registered passive that names the tag and has the matching beforeTrigger flag |
| Dispatcher.Gather | Lazylyst.py:139-145 | the loop over the passive order succeeds exactly when every listed tag is registered, and extends both accumulators with the side lists |
| Dispatcher.CollectActQueue | Lazylyst.py:134-146 | the queue is the before-trigger passives in configured order, the active action, then the after-trigger passives; an unregistered tag in the order raises |
| Dispatcher.RunQueue | Lazylyst.py:130-131 | running a queue keeps the preferences and the schema, and removes only timers of timed actions in the queue; its order and abandonment are stated by RunQueueSingle and RunQueueAppend |
| DispatcherProps.RunQueueSingle | Lazylyst.py:130-131 | a queue of one action executes that action once |
| DispatcherProps.RunQueueUnfold | Lazylyst.py:130-131 | the loop executes the head of the queue first and goes on with the rest only when it raised nothing |
| DispatcherProps.RunQueueAppend | Lazylyst.py:130-131 | a concatenated queue runs its first part, then, only if that raised nothing, its second part from the engine the first left; reports and fired hooks concatenate |
| Dispatcher.SetHot | Lazylyst.py:437-446 | setting curTraceSta or timeRange changes that hot variable and nothing else; a missing variable raises KeyError |
| Dispatcher.Refreshed | Lazylyst.py:437-446 | after the two refreshes, timeRange holds the shown range, curTraceSta the focused station, and every other hot variable, preference and timer is unchanged |
| Dispatcher.RunActiveAction | Lazylyst.py:124-131 | running an active action refreshes curTraceSta and timeRange, then runs the collected queue from that engine; a missing one of those two hot variables, or an unregistered action in the passive order, raises; preferences and the schema are kept and timers only shrink |
| Dispatcher.ProcessAction | Lazylyst.py:105-121 | a timed action only toggles its own timer, stopping it when running and starting it otherwise; an untimed action runs its collected queue at once from the refreshed engine, and can only stop timers |
| DispatcherProps.Tags | Lazylyst.py:134-146 | the tag list lines up with the queue position by position |
| DispatcherProps.SideDistinct | Lazylyst.py:139-145 | with a duplicate-free passive order, a side list holds no tag twice and only registered actions |
| DispatcherProps.ActiveAppearsOnce | Lazylyst.py:134-146 | an active action that is not itself in the passive order appears in its queue exactly once, right after the before-trigger passives, and no tag repeats |
| DispatcherProps.QueueOrderExample | Lazylyst.py:134-146 | with order [P2, P1, P3], where P1 and P2 run before trigger T and P3 after, the queue is [P2, P1, T, P3] |
| DispatcherProps.TimerToggleTwice | Lazylyst.py:105-121 | processing a timed action twice restores the timer set, and the first call flips whether its timer runs |
| DispatcherProps.ExecutePreservesWellTyped | Lazylyst.py:182-210 | when every hot variable holds a value of its declared type, executing any action keeps that so |
| DispatcherProps.RunQueuePreservesWellTyped | Lazylyst.py:124-131 | the same holds across a whole action queue |
| DispatcherProps.UntimedQueueKeepsTimers | Lazylyst.py:105-131 | when neither the action nor any registered action is timed, processing it leaves the timer set unchanged |
| DispatcherProps.UntimedActionRunsOnce | Lazylyst.py:105-146 | an untimed action is executed exactly once: the before-trigger passives run from the refreshed engine, then the action, then the after-trigger passives, each part only if the previous one raised nothing |
| PickFiles.IdField | Lazylyst.py:268 | the ID field is the part of a file name before its first underscore |
| PickFiles.SeenIds | Lazylyst.py:268 | every file's ID field is read with `int()`; one unreadable field raises ValueError |
| PickFiles.FillId | Lazylyst.py:271-273 | the `fill` style picks the least natural number not already used |
| PickFiles.NextId | Lazylyst.py:274-278 | the `next` style gives 0 for no files, otherwise one more than the largest ID, which is unused |
| PickFiles.IdWidth | Lazylyst.py:282-285 | the padding width is 10 without files, otherwise the length of the first file's ID field |
| PickFiles.PickFileNameId | Lazylyst.py:285 | the ID field of a generated name is the zero-padded ID, and reading it back gives the ID |
| PickFiles.AddPickFile | Lazylyst.py:262-286 | no archive does nothing; an unreadable existing ID raises; an unknown style adds nothing; otherwise the new name has a fresh ID that reads back, the old padding width, and the `.picks` suffix; `fill` gives the least free ID and `next` one past the maximum |
| Numerals.IntToStr | Lazylyst.py:285 | `int(str(n)) == n`, and the text starts with a digit exactly for non-negative numbers |
| Numerals.ZFillRoundTrip | Lazylyst.py:268-285 | a zero-padded ID reads back as the same number, so `seenIDs` recovers the IDs that `addPickFile` wrote |
| Numerals.ZFill | Lazylyst.py:285 | zfill pads to the requested width and leaves longer text alone |
| Paging.FloorDiv | Lazylyst.py:391 | Python 2 integer division rounds toward minus infinity |
| Paging.MaxPage | Lazylyst.py:391 | the last page index is the floor of (stations - 1) / staPerPage; a zero page size raises |
| Paging.MaxPageRange | Lazylyst.py:391-393 | the last page is -1 exactly when there are no stations; otherwise it is the page that holds the last station |
| Paging.UpdateCurPage | Lazylyst.py:390-400 | with no stations the page is left alone; above the last page it clips to the last page; below 0 it clips to 0; otherwise it is kept |
| Paging.UpdateCurPageInRange | Lazylyst.py:390-400 | after the update the page lies between 0 and the last page, and a page already in range is kept |
| Paging.UpdateCurPageIdempotent | Lazylyst.py:390-400 | updating the page twice gives the same page as once |
| Paging.TabCurPage | Lazylyst.py:407-417 | next moves forward only while the last page is not passed; otherwise prev moves back only while page 0 is not passed; anything else keeps the page |
| Paging.TabStaysInRange | Lazylyst.py:407-417 | tabbing from a page in range stays in range |
| Paging.NextThenPrev | Lazylyst.py:407-417 | a successful next followed by prev returns to the starting page |
| Paging.LastPageSentinel | Lazylyst.py:390-400 | the page number 99999 is clipped to the last page whenever there are at most 99999 stations |
| Picks.KnownOnly | Lazylyst.py:323-331 | the picks kept are exactly those whose type is known |
| Picks.RemUnknownPickTypes | Lazylyst.py:323-331 | for any listing of the types present as the visiting order (np.unique's sorted one among them), after dropping each unknown type exactly the picks of known types remain, in order; the types reported removed are exactly the unknown types present |
| Picks.GroupFromExact | Lazylyst.py:481-482 | the candidate indices are exactly the rows of the given station and type, in increasing order |
| Picks.SliceStop | Lazylyst.py:486 | the slice `[:-m]` keeps all but the last m entries when 0 < m <= count |
| Picks.ExcessIdxs | Lazylyst.py:477-488 | a type without a maximum raises KeyError when stations are checked; otherwise the deleted indices are exactly the union over types and stations |
| Picks.DeletedExactly | Lazylyst.py:481-486 | a row is deleted exactly when it matches the station and type and at least `max` later rows match too |
| Picks.ExcessIdxsExactly | Lazylyst.py:477-488 | an index is deleted exactly when some checked station and type make its row older than the newest `max` of its group |
| Picks.KeepRows | Lazylyst.py:493-494 | the rows kept are the rows whose index is not deleted, one per surviving index |
| Picks.KeepRowsAppend | Lazylyst.py:493-494 | a row appended to the table is kept, at the end, exactly when its index is not deleted; with no rows keeping none, this fixes the kept rows in table order |
| Picks.RemExcessPicksAsWritten | Lazylyst.py:472-493 | the code as written: with no type list given, it iterates the preference object itself and raises TypeError |
| Picks.DefaultKindsExample | Lazylyst.py:476-477 | on two P picks at one station, with at most one allowed, the code as written raises, while the corrected rule keeps the newer pick |
| Picks.RemExcessPicks | Lazylyst.py:472-493 | corrected rule: the default type list is the preference's keys, so it never raises for want of one, and with an explicit list it agrees with the code as written |
| Picks.RemExcessPicksKeepsNewest | Lazylyst.py:472-493 | the result is the pick set without exactly the picks older than the newest `max` of each checked (station, type) |
| Prefs.MeetsIsAcceptable | Preferences.py:187-196 | the coded comparisons `val < lo or val > hi` and `val not in choices` reject exactly the values outside the closed bound or not among the choices |
| Prefs.LineEditValue | Preferences.py:169-197 | the dialog yields a value exactly when the text converts to the declared type (`str` fails on non-ASCII text; dict needs a non-empty dictionary) and every checked value satisfies the conditions; that value is the converted one |
| Prefs.Update | Preferences.py:105-144 | on initialisation the value is kept and the function runs; otherwise a cancelled dialog, a missing or None value, or an unknown dialog keeps the value and skips the function; an accepted value replaces it and the function runs; nothing but the value ever changes |
| Prefs.GetValAfterUpdate | Preferences.py:100-144 | after an update, `getVal` returns the accepted reply's value; after an initialisation, a cancellation, a None value or an unknown dialog it returns the old value |
| Prefs.LineEditUpdateKeepsCondition | Preferences.py:105-144 | a preference edited through the line-edit dialog either keeps its value or takes one that meets its conditions |
| PenTable.UpdateItemText | Preferences.py:265-306 | the colour column does nothing; width is accepted in [0, 10] and depth in [-10, 10), otherwise the pen is unchanged; a tag rename to an unused ASCII tag moves the pen and updates the key order, a duplicate is refused, and an unused non-ASCII tag raises UnicodeEncodeError at `str()` before the dictionary changes; the `default` row's tag cell is not editable (Preferences.py:237-238), so no tag edit of that row changes anything; every edit that does not raise leaves the table consistent and keeps the `default` pen |
| PenTable.Rename | Preferences.py:295-301 | a rename moves the pen to the new tag, drops the old tag, keeps every other pen and replaces the tag in the key order |
| PenTable.SetPenColor | Preferences.py:251-263 | a chosen colour changes only that pen's colour; a cancelled choice changes nothing |
| PenTable.InsertPen | Preferences.py:308-330 | with NewPen already present nothing changes; otherwise NewPen with the default pen is added once, at the end of the key order |
| PenTable.DeletePen | Preferences.py:332-346 | the default pen is never deleted; any other selected row loses its pen and its key-order entry and nothing else; no selected row raises |
| PenTable.ApplyEdit | Preferences.py:251-346 | one user action in the dialog (a cell edit, a colour choice, an insertion or a deletion) keeps the table consistent and never loses the `default` pen; only a cell edit or a deletion can raise |
| PenTable.DefaultSurvives | Preferences.py:236-346 | across any series of dialog actions that raises nothing, the `default` pen is still present at the end |
| ExamplePlugins.TogglePickMode | Plugins/Examples.py:4-13 | the next mode is one of the pick types; no types divides by zero; an unknown current mode moves to sorted position 1 modulo the count |
| ExamplePlugins.TogglePickModeNextLarger | Plugins/Examples.py:4-13 | a mode below some other type moves to the least type above it |
| ExamplePlugins.TogglePickModeWraps | Plugins/Examples.py:4-13 | the largest mode wraps round to the smallest type |
| ExamplePlugins.TogglePickModeCycles | Plugins/Examples.py:4-13 | from any known mode, toggling once per type comes back to it and no fewer toggles do |
| ExamplePlugins.GoToPage | Plugins/Examples.py:16-21 | the page is 99999 exactly for 'last' and 0 otherwise; no `goToPage` keyword raises KeyError |
| ExamplePlugins.GoToPageLands | Plugins/Examples.py:16-21 | once clipped by the page update, 'last' lands on the last page and anything else on page 0 |
| ExamplePlugins.ToggleTraceColor | Plugins/Examples.py:24-30 | the result is one of the two assignments, with vertical channels highlighted exactly when they were lowlighted |
| ExamplePlugins.ToggleTraceColorPeriod | Plugins/Examples.py:24-30 | applied to its own output, the toggle alternates with period 2 |
| ExamplePlugins.AlternateTraceColor | Plugins/Examples.py:33-42 | without alt1 the vertical channel goes to alt1; from alt1 it goes to alt2, from alt2 to alt3 and from alt3 to alt1; a group it must inspect that is missing raises; with `*Z` in no group it returns None |
| ExamplePlugins.AlternateTraceColorPeriod | Plugins/Examples.py:33-42 | from an empty assignment, three distinct assignments repeat with period 3 |
| ExamplePlugins.StationNames | Plugins/Examples.py:49-51 | a metadata table contributes its first column |
| ExamplePlugins.Alternate | Plugins/Examples.py:60-64 | one group holds the stations at even positions and the other those at odd positions |
| ExamplePlugins.AlternateStaColorAssign | Plugins/Examples.py:45-65 | no stations returns `$pass`; otherwise the stations are split by position parity, swapped when the first station was already in alt1; a non-empty assignment without alt1 raises |
| ExamplePlugins.AlternateStaColorAssignPeriod | Plugins/Examples.py:45-65 | with distinct station names, feeding the result back swaps the two groups, and a third application restores the first result |
| ExamplePlugins.ToggleTestSources | Plugins/Examples.py:76-80 | 'testing' becomes 'testing2' and anything else becomes 'testing' |
| ExamplePlugins.ToggleTestSourcesPeriod | Plugins/Examples.py:76-80 | from any tag, two further toggles return to the first result |

## Left out

- The Qt interface is not modelled: windows, widgets, key bindings (`keyPressEvent`), drawing, logging and `updateStrollingList`.
- Timer intervals and the firing of timed actions are not modelled. Only the set of running timer tags is kept, because time is outside the model.
- Update hooks are reduced to the ordered list of keys whose hook fires (`Written`). Their side effects would re-enter the whole GUI.
- An action function is an opaque `invoke` parameter. An exception inside it is not modelled.
- A hot variable's sanity check is an opaque `check` parameter.
- `getVal` and `copy()` are modelled as the value itself. A deep copy is indistinguishable from the value in a value model.
- Which station widget has focus, and the time widget's range, are passed in as values.
- File I/O in `addPickFile` is not modelled: creating the file, re-listing the directory, and the updates to the event list and archive widgets. The model returns the new name. The time string is a parameter.
- Numerals.ParseFloat: reads an optional sign, digits and an optional fraction. Exponents, `inf`, `nan` and surrounding whitespace, all of which Python's `float()` also accepts, are not modelled. The same goes for whitespace that `int()` accepts.
- Prefs.LineEditValue: the `text2Dict` parser is not part of this model. Its outcome is a parameter.
- Prefs.Update: the colour and pen dialogs are represented by their replies. A rejected bound check on a non-number compares by Python 2's cross-type order, which is modelled only as "None below, anything else above".
- Picks.RemUnknownPickTypes: the listing of the types present is a parameter, not computed by `np.unique`; the contract holds for every listing, the sorted one included.
- Picks.RemExcessPicks: the default type list is passed in as a sequence holding the preference's keys. Python's dict iteration order is not modelled. Removing excess lines from visible station widgets is left out.
- Text is a sequence of characters: Qt's `unicode` and Python 2 `str` are not told apart, and only `str()` failing on non-ASCII text is modelled (Prefs.Convert, PenTable.UpdateItemText).
- PenTable.UpdateItemText: after the UnicodeEncodeError the dialog is left with its change signal disconnected and the cell showing the refused tag, so later edits no longer reach `updateItemText` and `insertPen`, `deletePen` and the cell lookup raise; the model stops at the error and does not model that broken dialog.
- PenTable.UpdateItemText: widths and depths are exact reals, not doubles. A decimal text within rounding distance of a bound is judged on its exact value: "10.0000000000000001" as a width is reverted here, where `float()` reads 10.0 and accepts it, and "9.99999999999999999" as a depth is accepted here, where it reads 10.0 and is refused.
- Prefs.Convert: a float preference keeps the exact decimal value of its text, not the nearest double.
- Values.TypeOf: whether an integer is a `long` is fixed by how the value was made (`VInt` or `VLong`), since action results are parameters; the promotion rules of individual arithmetic operators are not modelled. `sys.maxint` is that of a 64-bit Linux or macOS build (2^63 - 1); a Windows build, where it is 2^31 - 1, would make smaller integers `long`.
- Dispatcher.Unpack: iterables other than tuples, lists, arrays, strings and dictionaries are treated as not unpackable.
- Trigger lists are sequences of tags. A trigger given as a plain string, where Python's `in` would test for a substring, is not modelled.
- `checkArchiveSpan`, `updateEvent`, `loadPickFile`, `savePickSet`, `updatePagePicks` and the other `update*` display functions are not part of this model. Neither are the plugins `panPercent`, `randomEves`, `newPickDir` and `goToPickFile`: they draw or read files, return constants, or use randomness.
- The preference conditions bound `staPerPage` to [1, 30] and `pickTypesMaxCountPerSta` to [1, 999]. The paging and excess-pick lemmas therefore assume positive page sizes and maxima. The zero-division path is still modelled as an error.

## Findings

| source | as written | input that shows it | evidently intended | confidence | as-written member | corrected member |
|---|---|---|---|---|---|---|
| Lazylyst.py:476-477 | with no `checkTypes`, the default list iterates `self.pref['pickTypesMaxCountPerSta']`, a `Pref` object that is not iterable, so the call raises TypeError | `remExcessPicks()` with picks [(A, P, 1), (A, P, 2)] and maximum {P: 1} | iterate the preference's value, as on line 484, so that all configured types are checked | not executed; every present caller passes both lists explicitly | Picks.RemExcessPicksAsWritten, exhibited by Picks.DefaultKindsExample | Picks.RemExcessPicks, with Picks.RemExcessPicksKeepsNewest |

=== FILE: basics.dfy ===
/** Outcome types shared by every module of the model.

    The application is written in Python 2: an operation either returns a
    value or raises. `Result` carries the raised exception explicitly, so a
    caller of the model sees the error path instead of a precondition. */
module Basics {

  datatype Option<+T> = None | Some(value: T)

  /** The Python exceptions the modelled code can raise. */
  datatype PyError =
    | KeyError(key: string)
    | TypeError(what: string)
    | ValueError(text: string)
    | ZeroDivisionError
    | AttributeError(what: string)
    | UnicodeEncodeError

  datatype Result<+T> = Ok(value: T) | Err(error: PyError)
}

=== FILE: dispatcher.dfy ===
/** The action dispatcher: the hot-variable store, the action registry, the
    ordered queue built for a triggered action, the execute-validate-commit
    protocol for one action, and the per-tag timer table of timed actions.

    The dispatcher is written as pure state transitions over an `Engine`
    value. Action functions and hot-variable check functions are external
    code and enter as parameters (`Invoke`, `Check`). */
module Dispatcher {
  import opened Basics
  import opened Values
  import Prefs

  /** A hot variable: its current value, the type new values must have, and
      whether a check function is attached to it. */
  datatype HotVar = HotVar(val: Value, dataType: PyType, hasCheck: bool)

  /** An action as registered. `trigger` lists the active-action tags a
      passive action listens to; `func` names the bound function, `None`
      while the action is not linked to one. */
  datatype Action = Action(
    tag: string,
    trigger: seq<string>,
    beforeTrigger: bool,
    passive: bool,
    inputs: seq<string>,
    optionals: map<string, Value>,
    returnKeys: seq<string>,
    timer: bool,
    func: Option<string>)

  /** The dispatcher's mutable state: hot variables, preferences, and the
      tags of the timed actions whose timer is running. */
  datatype Engine = Engine(
    hot: map<string, HotVar>,
    pref: map<string, Prefs.Pref>,
    timers: set<string>)

  /** What an action function hands back: nothing, one value, or a tuple. */
  datatype Ret = RNone | ROne(v: Value) | RMany(vs: seq<Value>)

  /** The bound functions: function name, positional inputs, keyword
      optionals to the returned value. */
  type Invoke = (string, seq<Value>, map<string, Value>) -> Ret

  /** The hot variables' check functions, `check(main, value)`, evaluated
      against the engine state before the commit. */
  type Check = (Engine, string, Value) -> bool

  /** Messages the dispatcher prints when it discards an action's output. */
  datatype Report =
    | UnexpectedReturn(action: string)
    | WrongType(action: string, key: string, want: PyType, got: PyType)
    | CheckFailed(action: string, key: string)
    | CountMismatch(action: string, count: nat, expected: nat)

  /** The hot variable whose value is handed over as a copy. */
  const StreamKey: string := "stream"
  /** Hot variables refreshed from the widgets before every active action. */
  const CurTraceStaKey: string := "curTraceSta"
  const TimeRangeKey: string := "timeRange"

  /** The Python value a `Ret` stands for. */
  function Returned(r: Ret): Value
  {
    match r
    case RNone => VNone
    case ROne(v) => v
    case RMany(vs) => VTuple(vs)
  }

  /** `testReturnType(want, got)`: `str` also accepts numpy byte strings;
      every other declared type accepts only itself. */
  function TestReturnType(want: PyType, got: PyType): (ok: bool)
    ensures ok <==> want == got || (want == StrType && got == NpStringType)
  {
    if want == StrType && (got == StrType || got == NpStringType) then true
    else if want == got then true
    else false
  }

  // ---------------------------------------------------------------- inputs

  /** One input of an action: `stream` is taken from the hot variables only;
      any other key from the hot variables first, then the preferences. */
  function Resolve(e: Engine, key: string): (r: Result<Value>)
    ensures key in e.hot ==> r == Ok(e.hot[key].val)
    ensures key !in e.hot && key != StreamKey && key in e.pref ==> r == Ok(e.pref[key].val)
    ensures r.Err? <==> key !in e.hot && (key == StreamKey || key !in e.pref)
  {
    if key == StreamKey then
      if key in e.hot then Ok(e.hot[key].val) else Err(KeyError(key))
    else if key in e.hot then Ok(e.hot[key].val)
    else if key in e.pref then Ok(Prefs.GetVal(e.pref[key]))
    else Err(KeyError(key))
  }

  /** All inputs in declared order; the first unresolvable key raises. */
  function ResolveInputs(e: Engine, keys: seq<string>): (r: Result<seq<Value>>)
    ensures r.Ok? ==> |r.value| == |keys| && forall i :: 0 <= i < |keys| ==> Resolve(e, keys[i]) == Ok(r.value[i])
    ensures r.Err? <==> exists i :: 0 <= i < |keys| && Resolve(e, keys[i]).Err?
  {
    if |keys| == 0 then Ok([])
    else match Resolve(e, keys[0])
      case Err(err) => Err(err)
      case Ok(v) =>
        match ResolveInputs(e, keys[1..])
        case Err(err) =>
          assert exists i :: 0 <= i < |keys| - 1 && Resolve(e, keys[1..][i]).Err?;
          Err(err)
        case Ok(vs) =>
          assert forall i :: 1 <= i < |keys| ==> keys[i] == keys[1..][i - 1];
          Ok([v] + vs)
  }

  // -------------------------------------------------------- return slots

  /** How the returned value is split into slots. One declared return wraps
      the value as a one-element list; with more, the value itself is
      measured with `len` and indexed. A dictionary has a length but no
      integer keys; scalars and `None` have no length. */
  datatype Unpacked = Slots(vals: seq<Value>) | SizedOnly(count: nat) | Unsized

  function Chars(s: string): (cs: seq<Value>)
    ensures |cs| == |s|
  {
    seq(|s|, i requires 0 <= i < |s| => VStr([s[i]]))
  }

  function Unpack(out: Value, n: nat): (u: Unpacked)
    requires n > 0
    ensures n == 1 ==> u == Slots([out])
    ensures n > 1 && out.VTuple? ==> u == Slots(out.items)
    ensures n > 1 && (out.VList? || out.VTuple?) ==> u == Slots(out.items)
    ensures n > 1 && out.VArray? ==> u == Slots(out.rows)
    ensures n > 1 && (out.VStr? || out.VBytes?) ==>
              u.Slots? && |u.vals| == |out.s| && forall i :: 0 <= i < |out.s| ==> u.vals[i] == VStr([out.s[i]])
    ensures n > 1 && out.VDict? ==> u == SizedOnly(|out.entries|)
    ensures n > 1 ==> (u.Unsized? <==> out.VNone? || out.VBool? || out.VInt? || out.VLong? || out.VFloat? || out.VObject?)
  {
    if n == 1 then Slots([out])
    else match out
      case VTuple(xs) => Slots(xs)
      case VList(xs) => Slots(xs)
      case VArray(xs) => Slots(xs)
      case VStr(s) => Slots(Chars(s))
      case VBytes(s) => Slots(Chars(s))
      case VDict(m) => SizedOnly(|m|)
      case _ => Unsized
  }

  /** The outcome of examining one slot. `Missing` is a return key that names
      no hot variable, where the lookup raises. */
  datatype Verdict = Skip | Good | Bad(report: Report) | Missing

  function SlotVerdict(e: Engine, check: Check, action: string, key: string, v: Value): Verdict
  {
    if IsPass(v) then Skip
    else if key !in e.hot then Missing
    else if !TestReturnType(e.hot[key].dataType, TypeOf(v)) then
      Bad(WrongType(action, key, e.hot[key].dataType, TypeOf(v)))
    else if e.hot[key].hasCheck && !check(e, key, v) then Bad(CheckFailed(action, key))
    else Good
  }

  function Verdicts(e: Engine, check: Check, a: Action, vals: seq<Value>): (vs: seq<Verdict>)
    requires |vals| == |a.returnKeys|
    ensures |vs| == |vals|
    ensures forall i :: 0 <= i < |vs| ==> vs[i] == SlotVerdict(e, check, a.tag, a.returnKeys[i], vals[i])
  {
    seq(|vals|, i requires 0 <= i < |vals| => SlotVerdict(e, check, a.tag, a.returnKeys[i], vals[i]))
  }

  /** The reports of the rejected slots, in slot order. */
  function BadReports(vs: seq<Verdict>): seq<Report>
  {
    if |vs| == 0 then []
    else (if vs[0].Bad? then [vs[0].report] else []) + BadReports(vs[1..])
  }

  datatype Validation = Checked(rejected: bool, reports: seq<Report>) | MissingKey(index: nat, reports: seq<Report>)

  /** The validation loop: every slot is examined, a rejection is only
      recorded, and the loop stops early only when a lookup raises. */
  function Validate(vs: seq<Verdict>): (r: Validation)
    ensures r.Checked? ==>
              && (forall i :: 0 <= i < |vs| ==> !vs[i].Missing?)
              && (r.rejected <==> exists i :: 0 <= i < |vs| && vs[i].Bad?)
              && r.reports == BadReports(vs)
    ensures r.MissingKey? ==>
              && r.index < |vs| && vs[r.index].Missing?
              && (forall i :: 0 <= i < r.index ==> !vs[i].Missing?)
              && r.reports == BadReports(vs[..r.index])
  {
    if |vs| == 0 then Checked(false, [])
    else if vs[0].Missing? then
      assert vs[..0] == [];
      MissingKey(0, [])
    else
      var head := if vs[0].Bad? then [vs[0].report] else [];
      match Validate(vs[1..])
      case MissingKey(i, reps) =>
        assert vs[..i + 1][1..] == vs[1..][..i];
        MissingKey(i + 1, head + reps)
      case Checked(rejected, reps) =>
        assert forall i :: 1 <= i < |vs| ==> vs[i] == vs[1..][i - 1];
        Checked(rejected || vs[0].Bad?, head + reps)
  }

  // ---------------------------------------------------------------- commit

  /** Every non-`$pass` slot names an existing hot variable. */
  ghost predicate KeysKnown(hot: map<string, HotVar>, keys: seq<string>, vals: seq<Value>)
    requires |keys| == |vals|
  {
    forall i :: 0 <= i < |keys| && !IsPass(vals[i]) ==> keys[i] in hot
  }

  /** The two stores hold the same hot variables with the same declared
      types and checks; only values may differ. */
  ghost predicate SameSchema(h: map<string, HotVar>, h': map<string, HotVar>)
  {
    && h'.Keys == h.Keys
    && forall k :: k in h ==> h'[k].dataType == h[k].dataType && h'[k].hasCheck == h[k].hasCheck
  }

  /** The commit loop: each non-`$pass` slot's hot variable takes the
      returned value, in declared order. */
  function Commit(hot: map<string, HotVar>, keys: seq<string>, vals: seq<Value>): (r: map<string, HotVar>)
    requires |keys| == |vals| && KeysKnown(hot, keys, vals)
    ensures SameSchema(hot, r)
    decreases |keys|
  {
    if |keys| == 0 then hot
    else
      var hot' := if IsPass(vals[0]) then hot else hot[keys[0] := hot[keys[0]].(val := vals[0])];
      assert KeysKnown(hot', keys[1..], vals[1..]) by {
        assert forall i :: 1 <= i < |keys| ==> keys[i] == keys[1..][i - 1] && vals[i] == vals[1..][i - 1];
      }
      Commit(hot', keys[1..], vals[1..])
  }

  /** A hot variable that no non-`$pass` slot names keeps its whole record. */
  lemma {:induction false} CommitLeavesOthers(hot: map<string, HotVar>, keys: seq<string>, vals: seq<Value>, k: string)
    requires |keys| == |vals| && KeysKnown(hot, keys, vals) && k in hot
    requires forall i :: 0 <= i < |keys| && keys[i] == k ==> IsPass(vals[i])
    ensures Commit(hot, keys, vals)[k] == hot[k]
    decreases |keys|
  {
    if |keys| > 0 {
      var hot' := if IsPass(vals[0]) then hot else hot[keys[0] := hot[keys[0]].(val := vals[0])];
      assert forall i :: 1 <= i < |keys| ==> keys[i] == keys[1..][i - 1] && vals[i] == vals[1..][i - 1];
      CommitLeavesOthers(hot', keys[1..], vals[1..], k);
    }
  }

  /** The last non-`$pass` slot naming a hot variable decides its value. */
  lemma {:induction false} CommitLastWriteWins(hot: map<string, HotVar>, keys: seq<string>, vals: seq<Value>, i: nat)
    requires |keys| == |vals| && KeysKnown(hot, keys, vals)
    requires i < |keys| && !IsPass(vals[i])
    requires forall j :: i < j < |keys| && keys[j] == keys[i] ==> IsPass(vals[j])
    ensures Commit(hot, keys, vals)[keys[i]] == hot[keys[i]].(val := vals[i])
    decreases |keys|
  {
    var hot' := if IsPass(vals[0]) then hot else hot[keys[0] := hot[keys[0]].(val := vals[0])];
    assert forall j :: 1 <= j < |keys| ==> keys[j] == keys[1..][j - 1] && vals[j] == vals[1..][j - 1];
    if i == 0 {
      CommitLeavesOthers(hot', keys[1..], vals[1..], keys[0]);
    } else {
      CommitLastWriteWins(hot', keys[1..], vals[1..], i - 1);
    }
  }

  /** Every hot variable either keeps its record or holds the value of some
      non-`$pass` slot that names it. */
  lemma {:induction false} CommitWritesOnlySlots(hot: map<string, HotVar>, keys: seq<string>, vals: seq<Value>, k: string)
    requires |keys| == |vals| && KeysKnown(hot, keys, vals) && k in hot
    ensures var r := Commit(hot, keys, vals);
            r[k] == hot[k] ||
            exists i :: 0 <= i < |keys| && keys[i] == k && !IsPass(vals[i]) && r[k] == hot[k].(val := vals[i])
    decreases |keys|
  {
    if |keys| > 0 {
      var hot' := if IsPass(vals[0]) then hot else hot[keys[0] := hot[keys[0]].(val := vals[0])];
      assert forall j :: 1 <= j < |keys| ==> keys[j] == keys[1..][j - 1] && vals[j] == vals[1..][j - 1];
      CommitWritesOnlySlots(hot', keys[1..], vals[1..], k);
      var r := Commit(hot, keys, vals);
      assert r == Commit(hot', keys[1..], vals[1..]);
      if r[k] != hot'[k] {
        var i :| 0 <= i < |keys| - 1 && keys[1..][i] == k && !IsPass(vals[1..][i]) && r[k] == hot'[k].(val := vals[1..][i]);
        assert keys[i + 1] == k && !IsPass(vals[i + 1]) && r[k] == hot[k].(val := vals[i + 1]);
      } else if hot'[k] != hot[k] {
        assert keys[0] == k && !IsPass(vals[0]) && r[k] == hot[k].(val := vals[0]);
      }
    }
  }

  /** The hot variables whose update hook fires after a commit, in order. */
  function Written(keys: seq<string>, vals: seq<Value>): (w: seq<string>)
    requires |keys| == |vals|
    ensures forall k :: k in w <==> exists i :: 0 <= i < |keys| && keys[i] == k && !IsPass(vals[i])
  {
    if |keys| == 0 then []
    else
      assert forall i :: 1 <= i < |keys| ==> keys[i] == keys[1..][i - 1] && vals[i] == vals[1..][i - 1];
      (if IsPass(vals[0]) then [] else [keys[0]]) + Written(keys[1..], vals[1..])
  }

  /** One slot fires its key's hook exactly when it is not `$pass`. */
  lemma WrittenOne(k: string, v: Value)
    ensures Written([k], [v]) == if IsPass(v) then [] else [k]
  {
  }

  /** Hooks fire slot by slot in return order: the list for a split return
      list is the concatenation of the lists for its parts. */
  lemma {:induction false} WrittenAppend(k1: seq<string>, v1: seq<Value>, k2: seq<string>, v2: seq<Value>)
    requires |k1| == |v1| && |k2| == |v2|
    ensures Written(k1 + k2, v1 + v2) == Written(k1, v1) + Written(k2, v2)
    decreases |k1|
  {
    if |k1| > 0 {
      assert (k1 + k2)[1..] == k1[1..] + k2;
      assert (v1 + v2)[1..] == v1[1..] + v2;
      WrittenAppend(k1[1..], v1[1..], k2, v2);
      var head := if IsPass(v1[0]) then [] else [k1[0]];
      assert Written(k1 + k2, v1 + v2) == head + Written(k1[1..] + k2, v1[1..] + v2);
      assert Written(k1, v1) == head + Written(k1[1..], v1[1..]);
    } else {
      assert k1 + k2 == k2 && v1 + v2 == v2;
    }
  }

  // ---------------------------------------------------------------- timers

  /** `stopTimedAction`: the tag leaves the timer table; a tag that is not
      running raises. */
  function StopTimedAction(timers: set<string>, tag: string): (r: Result<set<string>>)
    ensures r.Ok? <==> tag in timers
    ensures r.Ok? ==> r.value == timers - {tag} && tag !in r.value
  {
    if tag in timers then Ok(timers - {tag}) else Err(KeyError(tag))
  }

  // ------------------------------------------------------- one execution

  /** The result of executing one action. A raised exception never changes
      the engine: every raise happens before the commit. */
  datatype Exec =
    | Completed(engine: Engine, reports: seq<Report>, updated: seq<string>)
    | Raised(reports: seq<Report>, error: PyError)

  /** A slot whose value the dispatcher would accept. */
  ghost predicate Accepts(e: Engine, check: Check, key: string, v: Value)
  {
    IsPass(v) ||
    (key in e.hot && TestReturnType(e.hot[key].dataType, TypeOf(v)) &&
     (e.hot[key].hasCheck ==> check(e, key, v)))
  }

  /** A slot that names a hot variable but fails its type or its check. */
  ghost predicate Rejects(e: Engine, check: Check, key: string, v: Value)
  {
    !IsPass(v) && key in e.hot && !Accepts(e, check, key, v)
  }

  /** The report a rejected slot produces: a type failure when the type does
      not match, a check failure only when it does. */
  ghost predicate ReportedFor(e: Engine, action: string, key: string, v: Value, reports: seq<Report>)
    requires key in e.hot
  {
    if TestReturnType(e.hot[key].dataType, TypeOf(v)) then CheckFailed(action, key) in reports
    else WrongType(action, key, e.hot[key].dataType, TypeOf(v)) in reports
  }

  /** Steps 4 to 6 of an execution: arity check, validation, commit. */
  function ApplyReturns(e: Engine, a: Action, out: Value, check: Check): (x: Exec)
    ensures |a.returnKeys| > 0 && Unpack(out, |a.returnKeys|).Unsized? ==>
              x.Raised? && x.reports == [] && x.error.TypeError?
    ensures |a.returnKeys| > 0 && Unpack(out, |a.returnKeys|).SizedOnly? ==>
              var c := Unpack(out, |a.returnKeys|).count;
              && (c == |a.returnKeys| ==> x.Raised? && x.reports == [] && x.error.KeyError?)
              && (c != |a.returnKeys| ==> x == Completed(e, [CountMismatch(a.tag, c, |a.returnKeys|)], []))
    ensures |a.returnKeys| > 0 && Unpack(out, |a.returnKeys|).Slots? ==>
              var vals := Unpack(out, |a.returnKeys|).vals;
              |vals| == |a.returnKeys| && !KeysKnown(e.hot, a.returnKeys, vals) ==> x.Raised? && x.error.KeyError?
    ensures x.Completed? ==> x.engine.pref == e.pref && SameSchema(e.hot, x.engine.hot)
    ensures x.Completed? ==> x.engine.hot == e.hot || x.engine.timers == e.timers
    ensures x.Completed? && x.engine.timers != e.timers ==>
              a.timer && a.tag in e.timers && x.engine.timers == e.timers - {a.tag} && x.engine.hot == e.hot
    ensures |a.returnKeys| == 0 ==> x.Completed? && x.engine == e && (x.reports == [] <==> ShowsNone(out))
    ensures |a.returnKeys| > 0 && Unpack(out, |a.returnKeys|).Slots? && |Unpack(out, |a.returnKeys|).vals| != |a.returnKeys| ==>
              x == Completed(e, [CountMismatch(a.tag, |Unpack(out, |a.returnKeys|).vals|, |a.returnKeys|)], [])
    ensures x.Completed? && x.engine.hot != e.hot ==>
              && |a.returnKeys| > 0 && Unpack(out, |a.returnKeys|).Slots?
              && var vals := Unpack(out, |a.returnKeys|).vals;
                 && |vals| == |a.returnKeys|
                 && forall i :: 0 <= i < |vals| ==> Accepts(e, check, a.returnKeys[i], vals[i])
    ensures |a.returnKeys| > 0 && Unpack(out, |a.returnKeys|).Slots? ==>
              var vals := Unpack(out, |a.returnKeys|).vals;
              |vals| == |a.returnKeys| && (forall i :: 0 <= i < |vals| ==> Accepts(e, check, a.returnKeys[i], vals[i])) ==>
                && KeysKnown(e.hot, a.returnKeys, vals)
                && x == Completed(e.(hot := Commit(e.hot, a.returnKeys, vals)), [], Written(a.returnKeys, vals))
    ensures |a.returnKeys| > 0 && Unpack(out, |a.returnKeys|).Slots? ==>
              var vals := Unpack(out, |a.returnKeys|).vals;
              |vals| == |a.returnKeys| && KeysKnown(e.hot, a.returnKeys, vals) &&
              (exists i :: 0 <= i < |vals| && Rejects(e, check, a.returnKeys[i], vals[i])) ==>
                && (x.Raised? <==> a.timer && a.tag !in e.timers)
                && (x.Completed? ==> x.engine == e.(timers := if a.timer then e.timers - {a.tag} else e.timers))
                && forall i :: 0 <= i < |vals| && Rejects(e, check, a.returnKeys[i], vals[i]) ==>
                     ReportedFor(e, a.tag, a.returnKeys[i], vals[i], x.reports)
  {
    var n := |a.returnKeys|;
    if n == 0 then Completed(e, if ShowsNone(out) then [] else [UnexpectedReturn(a.tag)], [])
    else match Unpack(out, n)
      case Unsized => Raised([], TypeError("len"))
      case SizedOnly(c) =>
        if c == n then Raised([], KeyError("0")) else Completed(e, [CountMismatch(a.tag, c, n)], [])
      case Slots(vals) =>
        if |vals| != n then Completed(e, [CountMismatch(a.tag, |vals|, n)], [])
        else
          var vs := Verdicts(e, check, a, vals);
          match Validate(vs)
          case MissingKey(i, reps) => Raised(reps, KeyError(a.returnKeys[i]))
          case Checked(rejected, reps) =>
            ValidationMeaning(e, check, a, vals);
            if rejected then
              if !a.timer then Completed(e, reps, [])
              else match StopTimedAction(e.timers, a.tag)
                case Err(err) => Raised(reps, err)
                case Ok(timers) => Completed(e.(timers := timers), reps, [])
            else
              Completed(e.(hot := Commit(e.hot, a.returnKeys, vals)), reps, Written(a.returnKeys, vals))
  }

  /** The verdicts computed by the validation loop mean what `Accepts`,
      `Rejects` and `ReportedFor` say. */
  lemma ValidationMeaning(e: Engine, check: Check, a: Action, vals: seq<Value>)
    requires |vals| == |a.returnKeys|
    ensures var vs := Verdicts(e, check, a, vals);
            var v := Validate(vs);
            && (v.Checked? <==> KeysKnown(e.hot, a.returnKeys, vals))
            && (v.Checked? ==>
                  && (v.rejected <==> exists i :: 0 <= i < |vals| && Rejects(e, check, a.returnKeys[i], vals[i]))
                  && (!v.rejected ==> v.reports == [] && forall i :: 0 <= i < |vals| ==> Accepts(e, check, a.returnKeys[i], vals[i]))
                  && forall i :: 0 <= i < |vals| && Rejects(e, check, a.returnKeys[i], vals[i]) ==>
                       ReportedFor(e, a.tag, a.returnKeys[i], vals[i], v.reports))
  {
    var vs := Verdicts(e, check, a, vals);
    var v := Validate(vs);
    if v.MissingKey? {
      assert !IsPass(vals[v.index]) && a.returnKeys[v.index] !in e.hot;
    } else {
      forall i | 0 <= i < |vals| && Rejects(e, check, a.returnKeys[i], vals[i])
        ensures ReportedFor(e, a.tag, a.returnKeys[i], vals[i], v.reports)
      {
        BadReportsContain(vs, i);
      }
      if !v.rejected {
        NoBadNoReports(vs);
      }
    }
  }

  lemma {:induction false} BadReportsContain(vs: seq<Verdict>, i: nat)
    requires i < |vs| && vs[i].Bad?
    ensures vs[i].report in BadReports(vs)
  {
    if i > 0 {
      assert vs[1..][i - 1] == vs[i];
      BadReportsContain(vs[1..], i - 1);
    }
  }

  lemma {:induction false} NoBadNoReports(vs: seq<Verdict>)
    requires forall i :: 0 <= i < |vs| ==> !vs[i].Bad?
    ensures BadReports(vs) == []
  {
    if |vs| > 0 {
      assert forall i :: 1 <= i < |vs| ==> vs[1..][i - 1] == vs[i];
      NoBadNoReports(vs[1..]);
    }
  }

  /** `executeAction`: an action without a bound function does nothing;
      otherwise its inputs are resolved, its function called, and its
      outputs validated and committed all-or-nothing. */
  function ExecuteAction(e: Engine, a: Action, invoke: Invoke, check: Check): (x: Exec)
    ensures a.func.None? ==> x == Completed(e, [], [])
    ensures ResolveInputs(e, a.inputs).Err? && a.func.Some? ==>
              x == Raised([], ResolveInputs(e, a.inputs).error)
    ensures a.func.Some? && ResolveInputs(e, a.inputs).Ok? ==>
              x == ApplyReturns(e, a, Returned(invoke(a.func.value, ResolveInputs(e, a.inputs).value, a.optionals)), check)
    ensures x.Completed? ==> x.engine.pref == e.pref && SameSchema(e.hot, x.engine.hot)
    ensures x.Completed? ==> x.engine.timers <= e.timers
    ensures x.Completed? && !a.timer ==> x.engine.timers == e.timers
    ensures x.Completed? && |a.returnKeys| == 0 ==> x.engine == e
    ensures x.Completed? && x.engine.timers != e.timers ==>
              a.timer && x.engine.timers == e.timers - {a.tag} && x.engine.hot == e.hot
  {
    if a.func.None? then Completed(e, [], [])
    else match ResolveInputs(e, a.inputs)
      case Err(err) => Raised([], err)
      case Ok(args) => ApplyReturns(e, a, Returned(invoke(a.func.value, args, a.optionals)), check)
  }

  // ----------------------------------------------------------------- queue

  /** Every tag of the passive order list names a registered action. */
  ghost predicate AllRegistered(acts: map<string, Action>, order: seq<string>)
  {
    forall i :: 0 <= i < |order| ==> order[i] in acts
  }

  /** A passive action that listens to `tag` on the given side. */
  predicate OnSide(p: Action, tag: string, before: bool)
  {
    tag in p.trigger && p.beforeTrigger == before
  }

  /** The passive actions of one side, in passive-order-list order. */
  function Side(acts: map<string, Action>, order: seq<string>, tag: string, before: bool): (s: seq<Action>)
    requires AllRegistered(acts, order)
    ensures forall x :: x in s ==> OnSide(x, tag, before)
  {
    if |order| == 0 then []
    else
      assert forall i :: 1 <= i < |order| ==> order[i] == order[1..][i - 1];
      var p := acts[order[0]];
      (if OnSide(p, tag, before) then [p] else []) + Side(acts, order[1..], tag, before)
  }

  /** A side holds exactly the registered passive actions of the order list
      that listen to the tag on that side. */
  lemma {:induction false} SideMembers(acts: map<string, Action>, order: seq<string>, tag: string, before: bool, x: Action)
    requires AllRegistered(acts, order)
    ensures x in Side(acts, order, tag, before) <==>
              OnSide(x, tag, before) && exists i :: 0 <= i < |order| && acts[order[i]] == x
  {
    if |order| > 0 {
      var rest := order[1..];
      assert forall i :: 0 <= i < |rest| ==> rest[i] == order[i + 1];
      SideMembers(acts, rest, tag, before, x);
      if x == acts[order[0]] && OnSide(x, tag, before) {
        assert x in Side(acts, order, tag, before);
      } else if OnSide(x, tag, before) && (exists i :: 0 <= i < |order| && acts[order[i]] == x) {
        var i :| 0 <= i < |order| && acts[order[i]] == x;
        assert i > 0 && acts[rest[i - 1]] == x;
      }
    }
  }

  /** The loop of `collectActQueue`, which appends each listening passive
      action to the before or the after list. */
  function Gather(acts: map<string, Action>, order: seq<string>, tag: string,
                  before: seq<Action>, after: seq<Action>): (r: Result<(seq<Action>, seq<Action>)>)
    ensures r.Ok? <==> AllRegistered(acts, order)
    ensures r.Ok? ==> (AllRegistered(acts, order) &&
                       r.value == (before + Side(acts, order, tag, true), after + Side(acts, order, tag, false)))
    decreases |order|
  {
    if |order| == 0 then
      assert before + [] == before && after + [] == after;
      Ok((before, after))
    else
      var t := order[0];
      if t !in acts then Err(KeyError(t))
      else
        var p := acts[t];
        assert forall i :: 1 <= i < |order| ==> order[i] == order[1..][i - 1];
        var sb := if OnSide(p, tag, true) then [p] else [];
        var sa := if OnSide(p, tag, false) then [p] else [];
        assert AllRegistered(acts, order) ==>
                 Side(acts, order, tag, true) == sb + Side(acts, order[1..], tag, true) &&
                 Side(acts, order, tag, false) == sa + Side(acts, order[1..], tag, false);
        var r := Gather(acts, order[1..], tag, before + sb, after + sa);
        assert r.Ok? ==> AllRegistered(acts, order);
        assert r.Ok? ==> before + sb + Side(acts, order[1..], tag, true) == before + (sb + Side(acts, order[1..], tag, true));
        assert r.Ok? ==> after + sa + Side(acts, order[1..], tag, false) == after + (sa + Side(acts, order[1..], tag, false));
        r
  }

  /** `collectActQueue`: the passive actions that run before the active
      one, the active action, then those that run after it. */
  function CollectActQueue(acts: map<string, Action>, order: seq<string>, a: Action): (r: Result<seq<Action>>)
    ensures r.Ok? <==> AllRegistered(acts, order)
    ensures r.Ok? ==> (AllRegistered(acts, order) &&
                       r.value == Side(acts, order, a.tag, true) + [a] + Side(acts, order, a.tag, false))
  {
    match Gather(acts, order, a.tag, [], [])
    case Err(err) => Err(err)
    case Ok((before, after)) => Ok(before + [a] + after)
  }

  /** The result of running a queue: the engine afterwards, the printed
      reports, the hot variables whose hooks fired, and the exception that
      stopped the queue, if any. */
  datatype Run = Run(engine: Engine, reports: seq<Report>, updated: seq<string>, error: Option<PyError>)

  /** One execution as a run: a raise keeps the engine the action started
      from and records the exception. */
  function Step(e: Engine, a: Action, invoke: Invoke, check: Check): (r: Run)
    ensures r.error.Some? <==> ExecuteAction(e, a, invoke, check).Raised?
    ensures r.error.Some? ==> r.engine == e && r.updated == []
    ensures r.error.None? ==> r.engine == ExecuteAction(e, a, invoke, check).engine
    ensures r.reports == ExecuteAction(e, a, invoke, check).reports
  {
    match ExecuteAction(e, a, invoke, check)
    case Raised(reps, err) => Run(e, reps, [], Some(err))
    case Completed(e1, reps, upd) => Run(e1, reps, upd, None)
  }

  /** `r2` run after `r1`, which must start where `r1` ended: an exception
      in `r1` abandons `r2`. */
  function Then(r1: Run, r2: Run): (r: Run)
    ensures r1.error.Some? ==> r == r1
    ensures r1.error.None? ==> r.engine == r2.engine && r.error == r2.error
    ensures r1.error.None? ==> r.reports == r1.reports + r2.reports && r.updated == r1.updated + r2.updated
  {
    if r1.error.Some? then r1
    else Run(r2.engine, r1.reports + r2.reports, r1.updated + r2.updated, r2.error)
  }

  /** Executes the queue in order; an exception abandons the rest of it. */
  function RunQueue(e: Engine, q: seq<Action>, invoke: Invoke, check: Check): (r: Run)
    ensures r.engine.pref == e.pref && SameSchema(e.hot, r.engine.hot)
    ensures r.engine.timers <= e.timers
    ensures forall t :: t in e.timers && t !in r.engine.timers ==>
              exists i :: 0 <= i < |q| && q[i].timer && q[i].tag == t
    decreases |q|
  {
    if |q| == 0 then Run(e, [], [], None)
    else match ExecuteAction(e, q[0], invoke, check)
      case Raised(reps, err) => Run(e, reps, [], Some(err))
      case Completed(e1, reps, upd) =>
        var rest := RunQueue(e1, q[1..], invoke, check);
        assert forall i :: 1 <= i < |q| ==> q[i] == q[1..][i - 1];
        Run(rest.engine, reps + rest.reports, upd + rest.updated, rest.error)
  }

  /** An unconditional internal write to an existing hot variable. */
  function SetHot(hot: map<string, HotVar>, key: string, v: Value): (r: Result<map<string, HotVar>>)
    ensures r.Ok? <==> key in hot
    ensures r.Ok? ==> (SameSchema(hot, r.value) && r.value[key].val == v &&
                       forall k :: k in hot && k != key ==> r.value[k] == hot[k])
  {
    if key in hot then Ok(hot[key := hot[key].(val := v)]) else Err(KeyError(key))
  }

  /** The engine after `setCurTraceSta` and `setTimeRange`. */
  function Refreshed(e: Engine, focus: Value, shown: Value): (e2: Engine)
    requires CurTraceStaKey in e.hot && TimeRangeKey in e.hot
    ensures e2.pref == e.pref && e2.timers == e.timers && SameSchema(e.hot, e2.hot)
    ensures e2.hot[TimeRangeKey].val == shown
    ensures CurTraceStaKey != TimeRangeKey ==> e2.hot[CurTraceStaKey].val == focus
    ensures forall k :: k in e.hot && k != CurTraceStaKey && k != TimeRangeKey ==> e2.hot[k] == e.hot[k]
  {
    var hot1 := e.hot[CurTraceStaKey := e.hot[CurTraceStaKey].(val := focus)];
    e.(hot := hot1[TimeRangeKey := hot1[TimeRangeKey].(val := shown)])
  }

  /** `runActiveAction`: refresh the focused station and the shown time
      range (read from the widgets, here parameters), build the queue and
      run it. */
  function RunActiveAction(e: Engine, acts: map<string, Action>, order: seq<string>, a: Action,
                           invoke: Invoke, check: Check, focus: Value, shown: Value): (r: Run)
    ensures r.engine.pref == e.pref && SameSchema(e.hot, r.engine.hot)
    ensures r.engine.timers <= e.timers
    ensures !AllRegistered(acts, order) ==> r.error.Some?
    ensures CurTraceStaKey !in e.hot || TimeRangeKey !in e.hot ==>
              r.error.Some? && r.error.value.KeyError? && r.reports == [] && r.updated == []
    ensures CurTraceStaKey in e.hot && TimeRangeKey in e.hot && CollectActQueue(acts, order, a).Ok? ==>
              r == RunQueue(Refreshed(e, focus, shown), CollectActQueue(acts, order, a).value, invoke, check)
  {
    match SetHot(e.hot, CurTraceStaKey, focus)
    case Err(err) => Run(e, [], [], Some(err))
    case Ok(hot1) =>
      match SetHot(hot1, TimeRangeKey, shown)
      case Err(err) => Run(e.(hot := hot1), [], [], Some(err))
      case Ok(hot2) =>
        var e2 := e.(hot := hot2);
        match CollectActQueue(acts, order, a)
        case Err(err) => Run(e2, [], [], Some(err))
        case Ok(q) => RunQueue(e2, q, invoke, check)
  }

  /** `processAction`: a timed action toggles its timer and runs nothing
      now; any other action runs once. */
  function ProcessAction(e: Engine, acts: map<string, Action>, order: seq<string>, a: Action,
                         invoke: Invoke, check: Check, focus: Value, shown: Value): (r: Run)
    ensures a.timer ==> r.engine == e.(timers := r.engine.timers) && r.error.None?
    ensures a.timer && a.tag in e.timers ==> r.engine.timers == e.timers - {a.tag}
    ensures a.timer && a.tag !in e.timers ==> r.engine.timers == e.timers + {a.tag}
    ensures !a.timer ==> r.engine.timers <= e.timers
    ensures !a.timer && CurTraceStaKey in e.hot && TimeRangeKey in e.hot && AllRegistered(acts, order) ==>
              CollectActQueue(acts, order, a).Ok? &&
              r == RunQueue(Refreshed(e, focus, shown), CollectActQueue(acts, order, a).value, invoke, check)
  {
    if a.timer then
      if a.tag in e.timers then
        match StopTimedAction(e.timers, a.tag)
        case Ok(timers) => Run(e.(timers := timers), [], [], None)
        case Err(err) => assert false; Run(e, [], [], Some(err))
      else Run(e.(timers := e.timers + {a.tag}), [], [], None)
    else RunActiveAction(e, acts, order, a, invoke, check, focus, shown)
  }
}

=== FILE: dispatcher_props.dfy ===
/** Properties of the dispatcher that relate several operations: the shape
    of the action queue, timer toggling, and the type invariant of the
    hot-variable store. */
module DispatcherProps {
  import opened Basics
  import opened Values
  import opened Dispatcher

  /** The tags of a queue, in order. */
  function Tags(q: seq<Action>): (ts: seq<string>)
    ensures |ts| == |q| && forall i :: 0 <= i < |q| ==> ts[i] == q[i].tag
  {
    seq(|q|, i requires 0 <= i < |q| => q[i].tag)
  }

  ghost predicate Distinct(ts: seq<string>)
  {
    forall i, j :: 0 <= i < j < |ts| ==> ts[i] != ts[j]
  }

  /** Every registered action is stored under its own tag. */
  ghost predicate KeyedByTag(acts: map<string, Action>)
  {
    forall t :: t in acts ==> acts[t].tag == t
  }

  /** Each side of the queue lists every listening passive action once, when
      the passive order list has no repeated tag. */
  lemma {:induction false} SideDistinct(acts: map<string, Action>, order: seq<string>, tag: string, before: bool)
    requires AllRegistered(acts, order) && KeyedByTag(acts) && Distinct(order)
    ensures Distinct(Tags(Side(acts, order, tag, before)))
    ensures forall x :: x in Side(acts, order, tag, before) ==> x.tag in order && acts[x.tag] == x
  {
    if |order| > 0 {
      var rest := order[1..];
      assert forall i :: 0 <= i < |rest| ==> rest[i] == order[i + 1];
      assert Distinct(rest);
      SideDistinct(acts, rest, tag, before);
      var s := Side(acts, rest, tag, before);
      var p := acts[order[0]];
      assert p.tag == order[0] && p.tag !in rest;
      var full := Side(acts, order, tag, before);
      assert full == (if OnSide(p, tag, before) then [p] else []) + s;
      forall x | x in full ensures x.tag in order && acts[x.tag] == x {
        if x != p {
          assert x in s;
        }
      }
      if OnSide(p, tag, before) {
        forall i, j | 0 <= i < j < |full| ensures full[i].tag != full[j].tag {
          assert full[j] == s[j - 1];
          if i > 0 {
            assert full[i] == s[i - 1];
            assert Tags(s)[i - 1] != Tags(s)[j - 1];
          } else {
            assert s[j - 1] in s;
          }
        }
      }
    }
  }

  /** The active action appears exactly once in its queue, between the two
      groups, and no passive action is queued twice. */
  lemma ActiveAppearsOnce(acts: map<string, Action>, order: seq<string>, a: Action)
    requires AllRegistered(acts, order) && KeyedByTag(acts) && Distinct(order) && a.tag !in order
    ensures CollectActQueue(acts, order, a).Ok?
    ensures var q := CollectActQueue(acts, order, a).value;
            var j := |Side(acts, order, a.tag, true)|;
            j < |q| && q[j] == a && Distinct(Tags(q))
  {
    var b := Side(acts, order, a.tag, true);
    var f := Side(acts, order, a.tag, false);
    SideDistinct(acts, order, a.tag, true);
    SideDistinct(acts, order, a.tag, false);
    SidesApart(acts, order, a.tag);
    ActiveOutsideSides(acts, order, a);
    var q := b + [a] + f;
    assert CollectActQueue(acts, order, a).value == q;
    TagsConcat(b, [a]);
    TagsConcat(b + [a], f);
    DistinctConcat(Tags(b), [a.tag]);
    DistinctConcat(Tags(b) + [a.tag], Tags(f));
    assert Tags([a]) == [a.tag];
    var tq := Tags(b) + [a.tag] + Tags(f);
    assert Distinct(tq);
    assert Tags(q) == tq;
  }

  lemma TagsConcat(xs: seq<Action>, ys: seq<Action>)
    ensures Tags(xs + ys) == Tags(xs) + Tags(ys)
  {
  }

  /** No tag is queued on both sides. */
  lemma SidesApart(acts: map<string, Action>, order: seq<string>, tag: string)
    requires AllRegistered(acts, order) && KeyedByTag(acts) && Distinct(order)
    ensures forall x :: x in Tags(Side(acts, order, tag, true)) ==> x !in Tags(Side(acts, order, tag, false))
  {
    var b := Side(acts, order, tag, true);
    var f := Side(acts, order, tag, false);
    SideDistinct(acts, order, tag, true);
    SideDistinct(acts, order, tag, false);
    forall x, y | x in Tags(b) && y in Tags(f) ensures x != y {
      var i :| 0 <= i < |b| && Tags(b)[i] == x;
      var j :| 0 <= j < |f| && Tags(f)[j] == y;
      assert b[i] in b && f[j] in f;
      assert OnSide(b[i], tag, true) && OnSide(f[j], tag, false);
    }
  }

  /** An active action outside the passive order list is on neither side. */
  lemma ActiveOutsideSides(acts: map<string, Action>, order: seq<string>, a: Action)
    requires AllRegistered(acts, order) && KeyedByTag(acts) && Distinct(order) && a.tag !in order
    ensures a.tag !in Tags(Side(acts, order, a.tag, true)) + Tags(Side(acts, order, a.tag, false))
  {
    var b := Side(acts, order, a.tag, true);
    var f := Side(acts, order, a.tag, false);
    SideDistinct(acts, order, a.tag, true);
    SideDistinct(acts, order, a.tag, false);
  }

  /** Two repetition-free sequences with no common element concatenate to a
      repetition-free sequence. */
  lemma DistinctConcat(xs: seq<string>, ys: seq<string>)
    requires Distinct(xs) && Distinct(ys) && forall x :: x in xs ==> x !in ys
    ensures Distinct(xs + ys)
  {
    var zs := xs + ys;
    forall i, j | 0 <= i < j < |zs| ensures zs[i] != zs[j] {
      if j < |xs| {
        assert zs[i] == xs[i] && zs[j] == xs[j];
      } else if i < |xs| {
        assert zs[i] == xs[i] && zs[j] == ys[j - |xs|] && zs[j] in ys;
      } else {
        assert zs[i] == ys[i - |xs|] && zs[j] == ys[j - |xs|];
      }
    }
  }

  /** An ordering example: P2 and P1 run before T (in that list order), P3
      after it. */
  lemma QueueOrderExample()
    ensures var p1 := Action("P1", ["T"], true, true, [], map[], [], false, None);
            var p2 := Action("P2", ["T"], true, true, [], map[], [], false, None);
            var p3 := Action("P3", ["T"], false, true, [], map[], [], false, None);
            var t := Action("T", [], false, false, [], map[], [], false, None);
            var acts := map["P1" := p1, "P2" := p2, "P3" := p3];
            CollectActQueue(acts, ["P2", "P1", "P3"], t) == Ok([p2, p1, t, p3])
  {
    var p1 := Action("P1", ["T"], true, true, [], map[], [], false, None);
    var p2 := Action("P2", ["T"], true, true, [], map[], [], false, None);
    var p3 := Action("P3", ["T"], false, true, [], map[], [], false, None);
    var acts := map["P1" := p1, "P2" := p2, "P3" := p3];
    var t := Action("T", [], false, false, [], map[], [], false, None);
    var order := ["P2", "P1", "P3"];
    assert order[1..] == ["P1", "P3"] && order[1..][1..] == ["P3"] && order[1..][1..][1..] == [];
    assert Side(acts, [], "T", true) == [] && Side(acts, [], "T", false) == [];
    assert Side(acts, ["P3"], "T", true) == [] + Side(acts, [], "T", true);
    assert Side(acts, ["P3"], "T", false) == [p3] + Side(acts, [], "T", false);
    assert Side(acts, ["P1", "P3"], "T", true) == [p1] && Side(acts, ["P1", "P3"], "T", false) == [p3];
    assert Side(acts, order, "T", true) == [p2, p1];
    assert Side(acts, order, "T", false) == [p3];
    assert AllRegistered(acts, order);
    var r := CollectActQueue(acts, order, t);
    assert r.Ok?;
    assert r.value == [p2, p1] + [t] + [p3] == [p2, p1, t, p3];
  }

  /** Starting a timed action and then stopping it restores the engine. */
  lemma TimerToggleTwice(e: Engine, acts: map<string, Action>, order: seq<string>, a: Action,
                         invoke: Invoke, check: Check, focus: Value, shown: Value)
    requires a.timer
    ensures var e1 := ProcessAction(e, acts, order, a, invoke, check, focus, shown).engine;
            var e2 := ProcessAction(e1, acts, order, a, invoke, check, focus, shown).engine;
            e2 == e && (a.tag in e1.timers <==> a.tag !in e.timers)
  {
    var e1 := ProcessAction(e, acts, order, a, invoke, check, focus, shown).engine;
    if a.tag in e.timers {
      assert e1.timers + {a.tag} == e.timers;
    } else {
      assert e1.timers - {a.tag} == e.timers;
    }
  }

  /** Every hot variable holds a value its declared type accepts. */
  ghost predicate WellTyped(hot: map<string, HotVar>)
  {
    forall k :: k in hot ==> TestReturnType(hot[k].dataType, TypeOf(hot[k].val))
  }

  /** Executing an action keeps every hot variable well typed: a commit only
      writes values that passed the type rule. */
  lemma ExecutePreservesWellTyped(e: Engine, a: Action, invoke: Invoke, check: Check)
    requires WellTyped(e.hot)
    ensures var x := ExecuteAction(e, a, invoke, check);
            x.Completed? ==> WellTyped(x.engine.hot)
  {
    var x := ExecuteAction(e, a, invoke, check);
    if x.Completed? && x.engine.hot != e.hot {
      var args := ResolveInputs(e, a.inputs).value;
      var out := Returned(invoke(a.func.value, args, a.optionals));
      assert x == ApplyReturns(e, a, out, check);
      var vals := Unpack(out, |a.returnKeys|).vals;
      assert forall i :: 0 <= i < |vals| ==> Accepts(e, check, a.returnKeys[i], vals[i]);
      assert x.engine.hot == Commit(e.hot, a.returnKeys, vals);
      forall k | k in x.engine.hot
        ensures TestReturnType(x.engine.hot[k].dataType, TypeOf(x.engine.hot[k].val))
      {
        CommitWritesOnlySlots(e.hot, a.returnKeys, vals, k);
        if x.engine.hot[k] != e.hot[k] {
          var i :| 0 <= i < |vals| && a.returnKeys[i] == k && !IsPass(vals[i]) &&
                   x.engine.hot[k] == e.hot[k].(val := vals[i]);
          assert Accepts(e, check, a.returnKeys[i], vals[i]);
        }
      }
    }
  }

  /** Running a queue keeps the hot variables well typed. */
  lemma {:induction false} RunQueuePreservesWellTyped(e: Engine, q: seq<Action>, invoke: Invoke, check: Check)
    requires WellTyped(e.hot)
    ensures WellTyped(RunQueue(e, q, invoke, check).engine.hot)
    decreases |q|
  {
    if |q| > 0 {
      ExecutePreservesWellTyped(e, q[0], invoke, check);
      var x := ExecuteAction(e, q[0], invoke, check);
      if x.Completed? {
        RunQueuePreservesWellTyped(x.engine, q[1..], invoke, check);
      }
    }
  }

  /** A queue of untimed actions never touches the timer table. */
  lemma UntimedQueueKeepsTimers(e: Engine, acts: map<string, Action>, order: seq<string>, a: Action,
                                invoke: Invoke, check: Check, focus: Value, shown: Value)
    requires !a.timer && forall t :: t in acts ==> !acts[t].timer
    ensures ProcessAction(e, acts, order, a, invoke, check, focus, shown).engine.timers == e.timers
  {
    var r := ProcessAction(e, acts, order, a, invoke, check, focus, shown);
    if AllRegistered(acts, order) && CurTraceStaKey in e.hot && TimeRangeKey in e.hot {
      var q := CollectActQueue(acts, order, a).value;
      assert forall i :: 0 <= i < |q| ==> !q[i].timer by {
        forall i | 0 <= i < |q| ensures !q[i].timer {
          var b := Side(acts, order, a.tag, true);
          SideMembers(acts, order, a.tag, true, q[i]);
          SideMembers(acts, order, a.tag, false, q[i]);
          if i < |b| {
            assert q[i] in b;
          } else if i > |b| {
            assert q[i] in Side(acts, order, a.tag, false);
          }
        }
      }
    }
  }

  /** A queue of one action runs that action once. */
  lemma RunQueueSingle(e: Engine, a: Action, invoke: Invoke, check: Check)
    ensures RunQueue(e, [a], invoke, check) == Step(e, a, invoke, check)
  {
    assert [a][1..] == [];
  }

  /** A non-empty queue runs its head, then, unless that raised, the rest. */
  lemma RunQueueUnfold(e: Engine, q: seq<Action>, invoke: Invoke, check: Check)
    requires |q| > 0
    ensures var s := Step(e, q[0], invoke, check);
            RunQueue(e, q, invoke, check) == Then(s, RunQueue(s.engine, q[1..], invoke, check))
  {
  }

  /** Running a concatenated queue runs the first part, then, unless it
      raised, the second part from where the first one ended. */
  lemma {:induction false} RunQueueAppend(e: Engine, q1: seq<Action>, q2: seq<Action>, invoke: Invoke, check: Check)
    ensures var r1 := RunQueue(e, q1, invoke, check);
            RunQueue(e, q1 + q2, invoke, check) == Then(r1, RunQueue(r1.engine, q2, invoke, check))
    decreases |q1|
  {
    if |q1| == 0 {
      assert q1 + q2 == q2;
    } else {
      assert (q1 + q2)[0] == q1[0];
      assert (q1 + q2)[1..] == q1[1..] + q2;
      RunQueueUnfold(e, q1, invoke, check);
      RunQueueUnfold(e, q1 + q2, invoke, check);
      var s := Step(e, q1[0], invoke, check);
      if s.error.None? {
        RunQueueAppend(s.engine, q1[1..], q2, invoke, check);
        ThenAssoc(s, RunQueue(s.engine, q1[1..], invoke, check),
                  RunQueue(RunQueue(s.engine, q1[1..], invoke, check).engine, q2, invoke, check));
      }
    }
  }

  /** Sequencing runs is associative. */
  lemma ThenAssoc(r1: Run, r2: Run, r3: Run)
    ensures Then(r1, Then(r2, r3)) == Then(Then(r1, r2), r3)
  {
    if r1.error.None? && r2.error.None? {
      assert r1.reports + (r2.reports + r3.reports) == (r1.reports + r2.reports) + r3.reports;
      assert r1.updated + (r2.updated + r3.updated) == (r1.updated + r2.updated) + r3.updated;
    }
  }

  /** An untimed action runs once, between its passives: after the two hot
      variables are refreshed, the before-trigger passives run, then the
      action itself, then the after-trigger passives, each part only if the
      previous one raised nothing. */
  lemma UntimedActionRunsOnce(e: Engine, acts: map<string, Action>, order: seq<string>, a: Action,
                              invoke: Invoke, check: Check, focus: Value, shown: Value)
    requires !a.timer && CurTraceStaKey in e.hot && TimeRangeKey in e.hot && AllRegistered(acts, order)
    ensures var before := RunQueue(Refreshed(e, focus, shown), Side(acts, order, a.tag, true), invoke, check);
            var mid := Step(before.engine, a, invoke, check);
            var after := RunQueue(mid.engine, Side(acts, order, a.tag, false), invoke, check);
            ProcessAction(e, acts, order, a, invoke, check, focus, shown) == Then(before, Then(mid, after))
  {
    var e0 := Refreshed(e, focus, shown);
    var bq := Side(acts, order, a.tag, true);
    var aq := Side(acts, order, a.tag, false);
    assert bq + [a] + aq == bq + ([a] + aq);
    RunQueueAppend(e0, bq, [a] + aq, invoke, check);
    var before := RunQueue(e0, bq, invoke, check);
    RunQueueAppend(before.engine, [a], aq, invoke, check);
    RunQueueSingle(before.engine, a, invoke, check);
  }

  /** An `int` hot variable takes only machine integers: a `long`, whether
      made as one or promoted beyond `sys.maxint`, fails the type test, so
      the whole return is refused. */
  lemma IntSlotRefusesLong(e: Engine, check: Check, key: string, i: int)
    requires key in e.hot && e.hot[key].dataType == IntType
    ensures Accepts(e, check, key, VInt(i)) ==> MachineInt(i)
    ensures !MachineInt(i) ==> Rejects(e, check, key, VInt(i))
    ensures Rejects(e, check, key, VLong(i))
  {
  }

  /** With several declared returns, a list or a numpy array is unpacked
      item by item exactly like a tuple of the same items. */
  lemma SequenceReturnsLikeTuple(e: Engine, a: Action, xs: seq<Value>, check: Check)
    requires |a.returnKeys| > 1
    ensures ApplyReturns(e, a, VList(xs), check) == ApplyReturns(e, a, VTuple(xs), check)
    ensures ApplyReturns(e, a, VArray(xs), check) == ApplyReturns(e, a, VTuple(xs), check)
  {
  }
}

=== FILE: lex.dfy ===
/** Python 2 string ordering and the `sorted(...)` of a set of keys.

    Python 2 `str` values compare lexicographically by character code, a
    proper prefix ordering first. `sorted` of distinct dictionary keys is
    therefore the unique strictly increasing listing of the key set. */
module Lex {

  /** `a < b` on Python 2 strings. */
  predicate Less(a: string, b: string)
    decreases |a|
  {
    if |a| == 0 then |b| > 0
    else if |b| == 0 then false
    else if a[0] != b[0] then a[0] < b[0]
    else Less(a[1..], b[1..])
  }

  lemma {:induction false} LessIrreflexive(a: string)
    ensures !Less(a, a)
    decreases |a|
  {
    if |a| > 0 {
      LessIrreflexive(a[1..]);
    }
  }

  lemma {:induction false} LessTransitive(a: string, b: string, c: string)
    requires Less(a, b) && Less(b, c)
    ensures Less(a, c)
    decreases |a|
  {
    if |a| > 0 && a[0] == b[0] && b[0] == c[0] {
      LessTransitive(a[1..], b[1..], c[1..]);
    }
  }

  lemma {:induction false} LessTotal(a: string, b: string)
    requires a != b
    ensures Less(a, b) || Less(b, a)
    decreases |a|
  {
    if |a| > 0 && |b| > 0 && a[0] == b[0] {
      assert a == [a[0]] + a[1..] && b == [b[0]] + b[1..];
      LessTotal(a[1..], b[1..]);
    }
  }

  lemma LessAsymmetric(a: string, b: string)
    requires Less(a, b)
    ensures !Less(b, a)
  {
    if Less(b, a) {
      LessTransitive(a, b, a);
      LessIrreflexive(a);
    }
  }

  /** Strictly increasing under `Less`; in particular free of duplicates. */
  ghost predicate StrictlySorted(xs: seq<string>)
  {
    forall i, j :: 0 <= i < j < |xs| ==> Less(xs[i], xs[j])
  }

  /** The smallest element of a non-empty set of strings. */
  ghost function Least(s: set<string>): (m: string)
    requires s != {}
    ensures m in s
    ensures forall x :: x in s && x != m ==> Less(m, x)
    decreases |s|
  {
    var x :| x in s;
    if s == {x} then x
    else
      var rest := Least(s - {x});
      if Less(x, rest) then
        assert forall y :: y in s && y != x ==> Less(x, y) by {
          forall y | y in s && y != x
            ensures Less(x, y)
          {
            if y != rest {
              LessTransitive(x, rest, y);
            }
          }
        }
        x
      else
        LessTotal(x, rest);
        rest
  }

  /** `sorted(keys)`: the key set listed in increasing order. */
  ghost function SortedKeys(s: set<string>): (r: seq<string>)
    ensures |r| == |s|
    ensures forall x :: x in r <==> x in s
    ensures StrictlySorted(r)
    decreases |s|
  {
    if s == {} then []
    else
      var m := Least(s);
      var rest := SortedKeys(s - {m});
      assert forall x :: x in rest ==> Less(m, x);
      [m] + rest
  }

  /** `list.index(x)` on a duplicate-free list that contains `x`. */
  function IndexOf(xs: seq<string>, x: string): (i: nat)
    requires x in xs
    ensures i < |xs| && xs[i] == x
    ensures forall j :: 0 <= j < i ==> xs[j] != x
  {
    if xs[0] == x then 0 else 1 + IndexOf(xs[1..], x)
  }

  /** In a strictly sorted list every element sits at exactly one place. */
  lemma IndexOfSorted(xs: seq<string>, k: nat)
    requires StrictlySorted(xs) && k < |xs|
    ensures IndexOf(xs, xs[k]) == k
  {
    var i := IndexOf(xs, xs[k]);
    if i < k {
      assert Less(xs[i], xs[k]);
      LessIrreflexive(xs[k]);
    }
  }

  /** No value occurs twice. */
  ghost predicate NoDuplicates(xs: seq<string>)
  {
    forall i, j :: 0 <= i < j < |xs| ==> xs[i] != xs[j]
  }

  lemma SortedDistinct(xs: seq<string>)
    requires StrictlySorted(xs)
    ensures NoDuplicates(xs)
  {
    forall i, j | 0 <= i < j < |xs| ensures xs[i] != xs[j] {
      LessIrreflexive(xs[i]);
    }
  }

  /** Insertion of a new element into a strictly sorted list. */
  function Insert(x: string, xs: seq<string>): (r: seq<string>)
    requires StrictlySorted(xs) && x !in xs
    ensures |r| == |xs| + 1
    ensures forall y :: y in r <==> y == x || y in xs
    ensures StrictlySorted(r)
  {
    if |xs| == 0 then [x]
    else if Less(x, xs[0]) then
      assert forall j :: 0 <= j < |xs| ==> Less(x, xs[j]) by {
        forall j | 0 < j < |xs| ensures Less(x, xs[j]) {
          LessTransitive(x, xs[0], xs[j]);
        }
      }
      [x] + xs
    else
      LessTotal(x, xs[0]);
      assert StrictlySorted(xs[1..]) && x !in xs[1..];
      var rest := Insert(x, xs[1..]);
      assert forall y :: y in rest ==> Less(xs[0], y) by {
        forall y | y in rest ensures Less(xs[0], y) {
          if y != x {
            var j :| 0 <= j < |xs[1..]| && xs[1..][j] == y;
            assert xs[j + 1] == y;
          }
        }
      }
      assert forall y :: y in xs <==> y == xs[0] || y in xs[1..] by {
        assert xs == [xs[0]] + xs[1..];
      }
      [xs[0]] + rest
  }

  /** `sorted(xs)` of a duplicate-free list of strings. */
  function Sort(xs: seq<string>): (r: seq<string>)
    requires NoDuplicates(xs)
    ensures |r| == |xs|
    ensures forall y :: y in r <==> y in xs
    ensures StrictlySorted(r)
  {
    if |xs| == 0 then []
    else
      assert forall y :: y in xs <==> y == xs[0] || y in xs[1..] by {
        assert xs == [xs[0]] + xs[1..];
      }
      assert xs[0] !in xs[1..];
      Insert(xs[0], Sort(xs[1..]))
  }
}

=== FILE: numerals.dfy ===
/** Decimal text as Python 2 reads and writes it: `int(text)`, `float(text)`,
    `str(n)` and `str.zfill(width)`.

    Only the forms the application produces or expects are modelled: an
    optional sign followed by decimal digits, and for floats an optional
    fractional part. */
module Numerals {
  import opened Basics

  predicate IsDigit(c: char)
  {
    '0' <= c <= '9'
  }

  predicate AllDigits(s: string)
  {
    forall i :: 0 <= i < |s| ==> IsDigit(s[i])
  }

  function DigitValue(c: char): nat
    requires IsDigit(c)
  {
    (c as int) - ('0' as int)
  }

  function Digit(d: nat): (c: char)
    requires d < 10
    ensures IsDigit(c) && DigitValue(c) == d
  {
    (('0' as int) + d) as char
  }

  /** The number a string of decimal digits denotes, read left to right. */
  function DigitsValue(s: string): nat
    requires AllDigits(s)
  {
    if |s| == 0 then 0 else DigitsValue(s[..|s| - 1]) * 10 + DigitValue(s[|s| - 1])
  }

  function Zeros(n: nat): (z: string)
    ensures |z| == n && AllDigits(z)
    ensures forall i :: 0 <= i < n ==> z[i] == '0'
  {
    if n == 0 then [] else ['0'] + Zeros(n - 1)
  }

  /** Leading zeros do not change the value of a digit string. */
  lemma {:induction false} LeadingZeros(n: nat, d: string)
    requires AllDigits(d)
    ensures AllDigits(Zeros(n) + d)
    ensures DigitsValue(Zeros(n) + d) == DigitsValue(d)
    decreases |d|
  {
    var s := Zeros(n) + d;
    if |d| == 0 {
      assert s == Zeros(n);
      ZerosValue(n);
    } else {
      var d' := d[..|d| - 1];
      assert s[..|s| - 1] == Zeros(n) + d';
      assert s[|s| - 1] == d[|d| - 1];
      LeadingZeros(n, d');
    }
  }

  lemma {:induction false} ZerosValue(n: nat)
    ensures DigitsValue(Zeros(n)) == 0
  {
    if n > 0 {
      var z := Zeros(n);
      var front := z[..n - 1];
      assert front == Zeros(n - 1) by {
        assert forall i :: 0 <= i < n - 1 ==> front[i] == '0';
      }
      ZerosValue(n - 1);
    }
  }

  /** `str(n)` for a non-negative integer: no leading zeros, at least one digit. */
  function NatToStr(n: nat): (s: string)
    ensures |s| > 0 && AllDigits(s)
    ensures DigitsValue(s) == n
    ensures |s| > 1 ==> s[0] != '0'
  {
    if n < 10 then [Digit(n)]
    else
      var prefix := NatToStr(n / 10);
      var s := prefix + [Digit(n % 10)];
      assert s[..|s| - 1] == prefix;
      s
  }

  /** Python `int(text)`: an optional `+` or `-`, then one or more digits. */
  function ParseInt(s: string): Option<int>
  {
    if |s| > 0 && (s[0] == '-' || s[0] == '+') then
      var d := s[1..];
      if |d| > 0 && AllDigits(d) then
        var v: int := DigitsValue(d);
        Some(if s[0] == '-' then -v else v)
      else None
    else if |s| > 0 && AllDigits(s) then Some(DigitsValue(s))
    else None
  }

  /** `str(n)` for any integer; `int` reads it back. */
  function IntToStr(n: int): (s: string)
    ensures ParseInt(s) == Some(n)
    ensures n >= 0 <==> (|s| > 0 && IsDigit(s[0]))
  {
    if n < 0 then
      var s := "-" + NatToStr(-n);
      assert s[1..] == NatToStr(-n);
      s
    else NatToStr(n)
  }

  /** Python `str.zfill(width)`: pad with zeros to `width`, keeping a leading
      sign in front of the padding. */
  function ZFill(s: string, width: int): (r: string)
    ensures |r| == if |s| >= width then |s| else width
    ensures |s| >= width ==> r == s
  {
    if |s| >= width then s
    else
      var fill := width - |s|;
      if |s| > 0 && (s[0] == '+' || s[0] == '-') then [s[0]] + Zeros(fill) + s[1..]
      else Zeros(fill) + s
  }

  /** Zero padding is invisible to `int`: the padded text of `str(n)` still
      reads back as `n`. */
  lemma ZFillRoundTrip(n: int, width: int)
    ensures ParseInt(ZFill(IntToStr(n), width)) == Some(n)
  {
    var s := IntToStr(n);
    if |s| < width {
      var fill := width - |s|;
      var r := ZFill(s, width);
      if n < 0 {
        var d := NatToStr(-n);
        assert s == "-" + d && s[1..] == d;
        assert r == ['-'] + (Zeros(fill) + d);
        assert r[1..] == Zeros(fill) + d;
        LeadingZeros(fill, d);
      } else {
        LeadingZeros(fill, s);
        assert r == Zeros(fill) + s;
        assert r[0] == '0';
      }
    }
  }

  function Pow10(k: nat): (p: nat)
    ensures p >= 1
  {
    if k == 0 then 1 else 10 * Pow10(k - 1)
  }

  /** Position of the first `.` in `s`, if any. */
  function DotIndex(s: string): (r: Option<nat>)
    ensures r.Some? ==> r.value < |s| && s[r.value] == '.'
    ensures r.Some? ==> forall i :: 0 <= i < r.value ==> s[i] != '.'
    ensures r.None? ==> forall i :: 0 <= i < |s| ==> s[i] != '.'
  {
    if |s| == 0 then None
    else if s[0] == '.' then Some(0)
    else match DotIndex(s[1..])
      case None => None
      case Some(i) => Some(i + 1)
  }

  /** The unsigned part of a decimal literal: `ddd`, `ddd.`, `ddd.ddd` or `.ddd`. */
  function ParseUnsignedDecimal(s: string): Option<real>
  {
    match DotIndex(s)
    case None =>
      if |s| > 0 && AllDigits(s) then Some(DigitsValue(s) as real) else None
    case Some(i) =>
      var whole := s[..i];
      var frac := s[i + 1..];
      if |whole| + |frac| > 0 && AllDigits(whole) && AllDigits(frac) then
        Some(DigitsValue(whole) as real + (DigitsValue(frac) as real) / (Pow10(|frac|) as real))
      else None
  }

  /** Python `float(text)` restricted to signed decimal literals. */
  function ParseFloat(s: string): Option<real>
  {
    if |s| > 0 && (s[0] == '-' || s[0] == '+') then
      match ParseUnsignedDecimal(s[1..])
      case None => None
      case Some(x) => Some(if s[0] == '-' then -x else x)
    else ParseUnsignedDecimal(s)
  }

  /** Every text `int` accepts, `float` accepts too, with the same value. */
  lemma ParseIntThenFloat(s: string)
    requires ParseInt(s).Some?
    ensures ParseFloat(s) == Some(ParseInt(s).value as real)
  {
    if |s| > 0 && (s[0] == '-' || s[0] == '+') {
      assert DotIndex(s[1..]).None? by { NoDotInDigits(s[1..]); }
    } else {
      NoDotInDigits(s);
    }
  }

  lemma NoDotInDigits(s: string)
    requires AllDigits(s)
    ensures DotIndex(s).None?
  {
    if DotIndex(s).Some? {
      assert IsDigit(s[DotIndex(s).value]);
    }
  }
}

=== FILE: paging.dfy ===
/** Page navigation over the sorted station list: clipping the current page
    (`updateCurPage`) and stepping to the next or previous page
    (`tabCurPage`). Page counts use Python 2 integer division, which rounds
    toward negative infinity. */
module Paging {
  import opened Basics

  /** Python 2 `a / b` on integers. */
  function FloorDiv(a: int, b: int): (q: int)
    requires b != 0
    ensures b > 0 ==> q * b <= a < q * b + b
    ensures b < 0 ==> q * b + b < a <= q * b
  {
    if b > 0 then a / b else (-a) / (-b)
  }

  /** The index of the last page, `(len(staSort) - 1) / staPerPage`; a zero
      page size raises. */
  function MaxPage(numSta: nat, perPage: int): (r: Result<int>)
    ensures r.Err? <==> perPage == 0
    ensures r.Err? ==> r.error == ZeroDivisionError
    ensures perPage > 0 ==> (r.Ok? && r.value * perPage <= numSta - 1 < r.value * perPage + perPage)
  {
    if perPage == 0 then Err(ZeroDivisionError) else Ok(FloorDiv(numSta - 1, perPage))
  }

  /** With a positive page size, the last page is -1 exactly when there are
      no stations, and otherwise the pages 0 .. last hold them all. */
  lemma MaxPageRange(numSta: nat, perPage: int)
    requires perPage > 0
    ensures var last := MaxPage(numSta, perPage).value;
            && (numSta == 0 <==> last == -1)
            && (numSta > 0 ==> 0 <= last && last * perPage < numSta <= (last + 1) * perPage)
  {
    var last := MaxPage(numSta, perPage).value;
    if last >= 0 {
      MulNonneg(last, perPage);
    } else if last <= -2 {
      MulNonpos(last + 1, perPage);
    }
    assert (last + 1) * perPage == last * perPage + perPage;
  }

  lemma MulNonneg(a: int, b: int)
    requires a >= 0 && b > 0
    ensures a * b >= 0 && a * b >= a
  {
  }

  lemma MulNonpos(a: int, b: int)
    requires a <= -1 && b > 0
    ensures a * b <= -b
  {
    assert a * b == (a + 1) * b - b;
    assert (a + 1) * b <= 0 by {
      MulNonneg(-(a + 1), b);
      assert (a + 1) * b == -((-(a + 1)) * b);
    }
  }

  /** `updateCurPage`: a last page of -1 (no stations) leaves the page
      alone; otherwise it is clipped into 0 .. last page. */
  function UpdateCurPage(cur: int, numSta: nat, perPage: int): (r: Result<int>)
    ensures r.Err? <==> perPage == 0
    ensures r.Ok? ==>
              var last := MaxPage(numSta, perPage).value;
              && (last == -1 ==> r.value == cur)
              && (last != -1 && cur > last ==> r.value == last)
              && (last != -1 && cur <= last && cur < 0 ==> r.value == 0)
              && (last != -1 && 0 <= cur <= last ==> r.value == cur)
  {
    match MaxPage(numSta, perPage)
    case Err(err) => Err(err)
    case Ok(last) =>
      if last == -1 then Ok(cur)
      else if cur > last then Ok(last)
      else if cur < 0 then Ok(0)
      else Ok(cur)
  }

  /** With stations and a positive page size the updated page is a real
      page, and a page already in range is kept. */
  lemma UpdateCurPageInRange(cur: int, numSta: nat, perPage: int)
    requires perPage > 0 && numSta > 0
    ensures var r := UpdateCurPage(cur, numSta, perPage);
            var last := MaxPage(numSta, perPage).value;
            r.Ok? && 0 <= r.value <= last && (0 <= cur <= last ==> r.value == cur)
  {
    MaxPageRange(numSta, perPage);
  }

  /** `tabCurPage`: step forward while a later page exists, or back while an
      earlier one does; otherwise stay. */
  function TabCurPage(cur: int, numSta: nat, perPage: int, nextPage: bool, prevPage: bool): (r: Result<int>)
    ensures r.Err? <==> perPage == 0
    ensures r.Ok? ==>
              var last := MaxPage(numSta, perPage).value;
              && (nextPage && cur + 1 <= last ==> r.value == cur + 1)
              && (!(nextPage && cur + 1 <= last) && prevPage && cur >= 1 ==> r.value == cur - 1)
              && (!(nextPage && cur + 1 <= last) && !(prevPage && cur >= 1) ==> r.value == cur)
  {
    match MaxPage(numSta, perPage)
    case Err(err) => Err(err)
    case Ok(last) =>
      if nextPage && cur + 1 <= last then Ok(cur + 1)
      else if prevPage && cur - 1 >= 0 then Ok(cur - 1)
      else Ok(cur)
  }

  /** With a positive page size, clipping is idempotent. (A negative page
      size can give a last page below -1, which clipping moves past.) */
  lemma UpdateCurPageIdempotent(cur: int, numSta: nat, perPage: int)
    requires perPage > 0
    ensures UpdateCurPage(UpdateCurPage(cur, numSta, perPage).value, numSta, perPage) ==
            UpdateCurPage(cur, numSta, perPage)
  {
    MaxPageRange(numSta, perPage);
  }

  /** Stepping never leaves the page range it starts in. */
  lemma TabStaysInRange(cur: int, numSta: nat, perPage: int, nextPage: bool, prevPage: bool)
    requires perPage > 0 && numSta > 0
    requires 0 <= cur <= MaxPage(numSta, perPage).value
    ensures var r := TabCurPage(cur, numSta, perPage, nextPage, prevPage);
            r.Ok? && 0 <= r.value <= MaxPage(numSta, perPage).value
  {
  }

  /** A step forward that moved is undone by a step back. */
  lemma NextThenPrev(cur: int, numSta: nat, perPage: int)
    requires perPage > 0 && 0 <= cur
    requires TabCurPage(cur, numSta, perPage, true, false).value != cur
    ensures var n := TabCurPage(cur, numSta, perPage, true, false).value;
            TabCurPage(n, numSta, perPage, false, true) == Ok(cur)
  {
  }

  /** The page number 99999 that "go to last page" sets is clipped to the
      last page by the update rule. */
  lemma LastPageSentinel(numSta: nat, perPage: int)
    requires 0 < perPage && 0 < numSta <= 99999
    ensures UpdateCurPage(99999, numSta, perPage) == Ok(MaxPage(numSta, perPage).value)
  {
    MaxPageRange(numSta, perPage);
    var last := MaxPage(numSta, perPage).value;
    MulNonneg(last, perPage);
  }
}

=== FILE: pen_table.dfy ===
/** The custom pen dialog: an editable table of named pens (colour, width,
    depth) kept as a dictionary plus `keyOrder`, the list that maps each
    table row back to the tag it showed before the user's latest edit. */
module PenTable {
  import opened Basics
  import opened Values
  import Numerals
  import Lex

  datatype Pen = Pen(color: int, width: real, depth: real)

  datatype Table = Table(pens: map<string, Pen>, keyOrder: seq<string>)

  /** The tag that can never be deleted. */
  const DefaultTag: string := "default"

  /** The tag of a freshly inserted row, and its initial pen. */
  const NewPenTag: string := "NewPen"
  const NewPen: Pen := Pen(4294967295, 1.0, 0.0)

  /** Stored for a width or depth text that `float` does not read. */
  const Unreadable: real := -99999.0

  ghost predicate Distinct(order: seq<string>)
  {
    forall i, j :: 0 <= i < j < |order| ==> order[i] != order[j]
  }

  /** Row `i` of the table shows tag `keyOrder[i]`; every tag appears in
      exactly one row. */
  ghost predicate Valid(t: Table)
  {
    && Distinct(t.keyOrder)
    && (forall k :: k in t.keyOrder <==> k in t.pens)
  }

  /** Opening the dialog lists the tags in sorted order. */
  ghost function Open(pens: map<string, Pen>): (t: Table)
    ensures Valid(t) && t.pens == pens
  {
    var order := Lex.SortedKeys(pens.Keys);
    assert Distinct(order) by {
      forall i, j | 0 <= i < j < |order|
        ensures order[i] != order[j]
      {
        Lex.LessIrreflexive(order[i]);
      }
    }
    Table(pens, order)
  }

  /** The editable columns of the table. */
  datatype Column = TagColumn | ColorColumn | WidthColumn | DepthColumn

  /** `float(text)`, or the unreadable marker when that raises. */
  function EditedNumber(text: string): real
  {
    match Numerals.ParseFloat(text)
    case None => Unreadable
    case Some(x) => x
  }

  /** The width check of `updateItemText`: the width must lie in [0, 10]. */
  predicate WidthAllowed(x: real)
  {
    !(x < 0.0 || x > 10.0)
  }

  /** The depth check of `updateItemText`: the depth must lie in [-10, 10). */
  predicate DepthAllowed(x: real)
  {
    !(x < -10.0 || x >= 10.0)
  }

  /** `updateItemText`: the cell at `row`, `col` now reads `text`. A width or
      depth outside its range (or unreadable) is reverted; a tag is renamed
      unless another row already carries it. A fresh tag that is not ASCII
      makes `str()` raise before the dictionary is touched. The tag cell of
      the `default` row is created enabled but not editable, so no edit of
      it ever arrives: the table stays as it is. */
  function UpdateItemText(t: Table, row: nat, col: Column, text: string): (r: Result<Table>)
    requires Valid(t) && row < |t.keyOrder|
    ensures r.Err? <==> col == TagColumn && t.keyOrder[row] != DefaultTag && text !in t.pens && !IsAscii(text)
    ensures r.Err? ==> r.error == UnicodeEncodeError
    ensures r.Ok? ==> Valid(r.value) && |r.value.pens| == |t.pens|
    ensures r.Ok? && DefaultTag in t.pens ==> DefaultTag in r.value.pens
    ensures col == TagColumn && t.keyOrder[row] == DefaultTag ==> r == Ok(t)
    ensures col == ColorColumn ==> r == Ok(t)
    ensures col == WidthColumn ==>
              var key := t.keyOrder[row];
              var x := EditedNumber(text);
              if 0.0 <= x <= 10.0 then r == Ok(t.(pens := t.pens[key := t.pens[key].(width := x)]))
              else r == Ok(t)
    ensures col == DepthColumn ==>
              var key := t.keyOrder[row];
              var x := EditedNumber(text);
              if -10.0 <= x < 10.0 then r == Ok(t.(pens := t.pens[key := t.pens[key].(depth := x)]))
              else r == Ok(t)
    ensures col == TagColumn && text in t.pens ==> r == Ok(t)
    ensures col == TagColumn && t.keyOrder[row] != DefaultTag && text !in t.pens && IsAscii(text) ==>
              var key := t.keyOrder[row];
              && r.Ok?
              && r.value.pens.Keys == t.pens.Keys - {key} + {text}
              && r.value.pens[text] == t.pens[key]
              && (forall k :: k in t.pens && k != key ==> r.value.pens[k] == t.pens[k])
              && r.value.keyOrder == t.keyOrder[row := text]
  {
    var key := t.keyOrder[row];
    match col
    case ColorColumn => Ok(t)
    case WidthColumn =>
      var x := EditedNumber(text);
      if !WidthAllowed(x) then Ok(t)
      else Ok(t.(pens := t.pens[key := t.pens[key].(width := x)]))
    case DepthColumn =>
      var x := EditedNumber(text);
      if !DepthAllowed(x) then Ok(t)
      else Ok(t.(pens := t.pens[key := t.pens[key].(depth := x)]))
    case TagColumn =>
      if key == DefaultTag || text == key then Ok(t)
      else if text in (set k | k in t.pens && k != key) then Ok(t)
      else if !IsAscii(text) then Err(UnicodeEncodeError)
      else Ok(Rename(t, row, text))
  }

  /** The accepted branch of a tag edit: the entry moves to the new tag and
      the row now refers to it. */
  function Rename(t: Table, row: nat, text: string): (r: Table)
    requires Valid(t) && row < |t.keyOrder| && text !in t.pens
    ensures Valid(r)
    ensures |r.pens| == |t.pens|
    ensures r.pens.Keys == t.pens.Keys - {t.keyOrder[row]} + {text}
    ensures r.pens[text] == t.pens[t.keyOrder[row]]
    ensures forall k :: k in t.pens && k != t.keyOrder[row] ==> r.pens[k] == t.pens[k]
    ensures r.keyOrder == t.keyOrder[row := text]
  {
    var key := t.keyOrder[row];
    var moved := t.pens[text := t.pens[key]];
    assert moved.Keys == t.pens.Keys + {text};
    var pens := moved - {key};
    assert pens.Keys == moved.Keys - {key};
    assert |pens.Keys| == |t.pens.Keys|;
    ReplaceInOrder(t.keyOrder, row, text);
    Table(pens, t.keyOrder[row := text])
  }

  /** Replacing one entry of a duplicate-free list by a fresh tag keeps it
      duplicate-free and swaps exactly that tag. */
  lemma ReplaceInOrder(order: seq<string>, row: nat, text: string)
    requires row < |order| && text !in order && Distinct(order)
    ensures Distinct(order[row := text])
    ensures forall k :: k in order[row := text] <==> (k in order && k != order[row]) || k == text
  {
    var o := order[row := text];
    forall k
      ensures k in o <==> (k in order && k != order[row]) || k == text
    {
      if k != text && k in order {
        var i :| 0 <= i < |order| && order[i] == k;
        assert i != row ==> o[i] == k;
      }
      if k in o && k != text {
        var i :| 0 <= i < |o| && o[i] == k;
        assert i != row && order[i] == k;
        if i < row {
          assert order[i] != order[row];
        } else {
          assert order[row] != order[i];
        }
      }
      if k == text {
        assert o[row] == text;
      }
    }
  }

  /** Removing one entry of a duplicate-free list keeps it duplicate-free and
      drops exactly that tag. */
  lemma RemoveFromOrder(order: seq<string>, row: nat)
    requires row < |order| && Distinct(order)
    ensures var o := order[..row] + order[row + 1..];
            && Distinct(o)
            && forall k :: k in o <==> k in order && k != order[row]
  {
    var o := order[..row] + order[row + 1..];
    assert forall i :: 0 <= i < |o| ==> o[i] == (if i < row then order[i] else order[i + 1]);
    forall k
      ensures k in o <==> k in order && k != order[row]
    {
      if k in order && k != order[row] {
        var i :| 0 <= i < |order| && order[i] == k;
        assert o[if i < row then i else i - 1] == k;
      }
    }
  }

  /** `updatePenColor`: the colour chosen for the pen at `row`, if the colour
      dialog was not cancelled. */
  function SetPenColor(t: Table, row: nat, chosen: Option<int>): (r: Table)
    requires Valid(t) && row < |t.keyOrder|
    ensures Valid(r) && r.keyOrder == t.keyOrder && r.pens.Keys == t.pens.Keys
    ensures chosen.None? ==> r == t
    ensures chosen.Some? ==>
              var key := t.keyOrder[row];
              r.pens[key] == t.pens[key].(color := chosen.value)
              && forall k :: k in t.pens && k != key ==> r.pens[k] == t.pens[k]
  {
    match chosen
    case None => t
    case Some(rgba) =>
      var key := t.keyOrder[row];
      t.(pens := t.pens[key := t.pens[key].(color := rgba)])
  }

  /** `insertPen`: refused while a `NewPen` row exists, otherwise a new row
      `NewPen` with the default new pen is appended. */
  function InsertPen(t: Table): (r: Table)
    requires Valid(t)
    ensures Valid(r)
    ensures NewPenTag in r.pens
    ensures NewPenTag in t.pens ==> r == t
    ensures NewPenTag !in t.pens ==>
              && r.pens == t.pens[NewPenTag := NewPen]
              && r.keyOrder == t.keyOrder + [NewPenTag]
              && |r.pens| == |t.pens| + 1
  {
    if NewPenTag in t.pens then t
    else Table(t.pens[NewPenTag := NewPen], t.keyOrder + [NewPenTag])
  }

  /** `deletePen` on the currently selected row (`-1` when none is selected,
      where the table has no item and the lookup fails). The `default` pen
      is never deleted. */
  function DeletePen(t: Table, row: int): (r: Result<Table>)
    requires Valid(t)
    ensures r.Err? <==> !(0 <= row < |t.keyOrder|)
    ensures r.Ok? ==> Valid(r.value)
    ensures r.Ok? && DefaultTag in t.pens ==> DefaultTag in r.value.pens
    ensures r.Ok? && t.keyOrder[row] != DefaultTag ==>
              && r.value.pens == t.pens - {t.keyOrder[row]}
              && r.value.keyOrder == t.keyOrder[..row] + t.keyOrder[row + 1..]
              && |r.value.pens| == |t.pens| - 1
    ensures r.Ok? && t.keyOrder[row] == DefaultTag ==> r.value == t
  {
    if !(0 <= row < |t.keyOrder|) then Err(AttributeError("item"))
    else
      var key := t.keyOrder[row];
      if key == DefaultTag then Ok(t)
      else
        RemoveFromOrder(t.keyOrder, row);
        var pens := t.pens - {key};
        assert pens.Keys == t.pens.Keys - {key};
        Ok(Table(pens, t.keyOrder[..row] + t.keyOrder[row + 1..]))
  }

  /** What the user can do in the dialog. `Delete` carries the selected row,
      `-1` when none is selected. */
  datatype Edit =
    | EditText(row: nat, col: Column, text: string)
    | PickColor(row: nat, chosen: Option<int>)
    | Insert
    | Delete(selected: int)

  /** One edit. An edit naming a row the table does not have is not
      deliverable and changes nothing. */
  function ApplyEdit(t: Table, edit: Edit): (r: Result<Table>)
    requires Valid(t)
    ensures r.Ok? ==> Valid(r.value)
    ensures r.Ok? && DefaultTag in t.pens ==> DefaultTag in r.value.pens
    ensures r.Err? ==> edit.EditText? || edit.Delete?
  {
    match edit
    case EditText(row, col, text) =>
      if row < |t.keyOrder| then UpdateItemText(t, row, col, text) else Ok(t)
    case PickColor(row, chosen) =>
      if row < |t.keyOrder| then Ok(SetPenColor(t, row, chosen)) else Ok(t)
    case Insert => Ok(InsertPen(t))
    case Delete(selected) => DeletePen(t, selected)
  }

  /** The dialog after a series of edits; the first one that raises ends it. */
  function ApplyEdits(t: Table, edits: seq<Edit>): (r: Result<Table>)
    requires Valid(t)
    ensures r.Ok? ==> Valid(r.value)
    decreases |edits|
  {
    if |edits| == 0 then Ok(t)
    else
      match ApplyEdit(t, edits[0])
      case Err(err) => Err(err)
      case Ok(t1) => ApplyEdits(t1, edits[1..])
  }

  /** The `default` pen survives every series of edits that does not raise. */
  lemma {:induction false} DefaultSurvives(t: Table, edits: seq<Edit>)
    requires Valid(t) && DefaultTag in t.pens
    ensures ApplyEdits(t, edits).Ok? ==> DefaultTag in ApplyEdits(t, edits).value.pens
    decreases |edits|
  {
    if |edits| > 0 {
      var next := ApplyEdit(t, edits[0]);
      if next.Ok? {
        DefaultSurvives(next.value, edits[1..]);
      }
    }
  }
}

=== FILE: pick_files.dfy ===
/** Naming of a new, empty pick file (`addPickFile`): the event ID is chosen
    from the IDs of the existing files by the `fill` or `next` style and
    written zero-padded in front of the event time. */
module PickFiles {
  import opened Basics
  import opened Numerals

  /** Default width of the zero-padded ID when no pick file exists yet. */
  const DefaultWidth: nat := 10
  const FillStyle: string := "fill"
  const NextStyle: string := "next"
  const PicksSuffix: string := ".picks"

  /** `name.split('_')[0]`: the text before the first underscore. */
  function IdField(name: string): (f: string)
    ensures f <= name && '_' !in f
    ensures |f| < |name| ==> name[|f|] == '_'
  {
    if |name| == 0 || name[0] == '_' then ""
    else [name[0]] + IdField(name[1..])
  }

  /** The IDs of the existing files; a field `int` cannot read raises. */
  function SeenIds(files: seq<string>): (r: Result<seq<int>>)
    ensures r.Ok? <==> forall i :: 0 <= i < |files| ==> ParseInt(IdField(files[i])).Some?
    ensures r.Ok? ==> |r.value| == |files| &&
                      forall i :: 0 <= i < |files| ==> ParseInt(IdField(files[i])) == Some(r.value[i])
    ensures r.Err? ==> r.error.ValueError?
  {
    if |files| == 0 then Ok([])
    else match ParseInt(IdField(files[0]))
      case None => Err(ValueError(IdField(files[0])))
      case Some(id) =>
        assert forall i :: 1 <= i < |files| ==> files[i] == files[1..][i - 1];
        match SeenIds(files[1..])
        case Err(err) => Err(err)
        case Ok(rest) => Ok([id] + rest)
  }

  function Max(ids: seq<int>): (m: int)
    requires |ids| > 0
    ensures m in ids && forall i :: 0 <= i < |ids| ==> ids[i] <= m
  {
    if |ids| == 1 then ids[0]
    else
      var m := Max(ids[1..]);
      assert forall i :: 1 <= i < |ids| ==> ids[i] == ids[1..][i - 1];
      if ids[0] >= m then ids[0] else m
  }

  /** The integers 0 .. n-1. */
  function Below(n: nat): (r: set<int>)
    ensures |r| == n
    ensures forall k :: k in r <==> 0 <= k < n
  {
    if n == 0 then {} else Below(n - 1) + {n - 1}
  }

  /** A sequence has at least as many entries as distinct values. */
  lemma {:induction false} ElementsSize(ids: seq<int>)
    ensures |set x | x in ids| <= |ids|
  {
    if |ids| > 0 {
      ElementsSize(ids[1..]);
      assert forall x :: x in ids <==> x == ids[0] || x in ids[1..] by {
        assert ids == [ids[0]] + ids[1..];
      }
      assert (set x | x in ids) == (set x | x in ids[1..]) + {ids[0]};
    }
  }

  /** If 0 .. n-1 all occur in `ids`, then `ids` has at least n entries. */
  lemma PrefixOfNaturalsBound(ids: seq<int>, n: nat)
    requires forall k :: 0 <= k < n ==> k in ids
    ensures n <= |ids|
  {
    ElementsSize(ids);
    SubsetSize(Below(n), set x | x in ids);
  }

  lemma {:induction false} SubsetSize(a: set<int>, b: set<int>)
    requires a <= b
    ensures |a| <= |b|
    decreases |a|
  {
    if a != {} {
      assert exists x :: x in a by {
        if forall x :: x !in a {
          assert false;
        }
      }
      var x :| x in a;
      SubsetSize(a - {x}, b - {x});
    }
  }

  /** The `fill` style: the least non-negative integer not used yet. */
  method FillId(ids: seq<int>) returns (id: int)
    ensures 0 <= id && id !in ids
    ensures forall k :: 0 <= k < id ==> k in ids
  {
    id := 0;
    while id in ids
      invariant 0 <= id <= |ids|
      invariant forall k :: 0 <= k < id ==> k in ids
      decreases |ids| - id
    {
      PrefixOfNaturalsBound(ids, id + 1);
      id := id + 1;
    }
  }

  /** The `next` style: one more than the largest ID, 0 for no files. */
  function NextId(ids: seq<int>): (id: int)
    ensures id !in ids
    ensures |ids| == 0 ==> id == 0
    ensures |ids| > 0 ==> id - 1 in ids && forall i :: 0 <= i < |ids| ==> ids[i] < id
  {
    if |ids| == 0 then 0 else Max(ids) + 1
  }

  /** The padding width: the ID length of the first listed file, 10 when
      there is none. */
  function IdWidth(files: seq<string>): (w: nat)
    ensures |files| == 0 ==> w == DefaultWidth
    ensures |files| > 0 ==> w == |IdField(files[0])|
  {
    if |files| == 0 then DefaultWidth else |IdField(files[0])|
  }

  /** The name of a new pick file. */
  function PickFileName(id: int, width: nat, timeStr: string): string
  {
    ZFill(IntToStr(id), width) + "_" + timeStr + PicksSuffix
  }

  /** The padded ID has no underscore, so the name's ID field is exactly the
      padded ID and reads back as the ID. */
  lemma PickFileNameId(id: int, width: nat, timeStr: string)
    ensures IdField(PickFileName(id, width, timeStr)) == ZFill(IntToStr(id), width)
    ensures ParseInt(IdField(PickFileName(id, width, timeStr))) == Some(id)
  {
    var z := ZFill(IntToStr(id), width);
    ZFillNoUnderscore(IntToStr(id), width);
    IdFieldStops(z, "_" + timeStr + PicksSuffix);
    assert PickFileName(id, width, timeStr) == z + ("_" + timeStr + PicksSuffix);
    ZFillRoundTrip(id, width);
  }

  lemma ZFillNoUnderscore(s: string, width: nat)
    requires '_' !in s
    ensures '_' !in ZFill(s, width)
  {
    if |s| < width {
      var z := Zeros(width - |s|);
      assert '_' !in z by {
        forall i | 0 <= i < |z| ensures z[i] != '_' {
          assert z[i] == '0';
        }
      }
    }
  }

  lemma {:induction false} IdFieldStops(a: string, b: string)
    requires '_' !in a && |b| > 0 && b[0] == '_'
    ensures IdField(a + b) == a
  {
    if |a| == 0 {
      assert a + b == b;
    } else {
      assert (a + b)[1..] == a[1..] + b;
      IdFieldStops(a[1..], b);
    }
  }

  lemma IntToStrNoUnderscore(n: int)
    ensures '_' !in IntToStr(n)
  {
  }

  datatype NewPickFile = NewPickFile(id: int, name: string)

  /** `addPickFile`, up to the file creation: nothing happens without an
      archive; an unreadable existing ID raises; an unknown style creates
      nothing. */
  method AddPickFile(archDir: string, files: seq<string>, style: string, timeStr: string)
    returns (r: Result<Option<NewPickFile>>)
    ensures archDir == "" ==> r == Ok(None)
    ensures archDir != "" ==> (r.Err? <==> SeenIds(files).Err?)
    ensures r.Ok? && r.value.None? ==> archDir == "" || (style != FillStyle && style != NextStyle)
    ensures archDir != "" && SeenIds(files).Ok? && (style == FillStyle || style == NextStyle) ==>
              r.Ok? && r.value.Some?
    ensures r.Ok? && r.value.Some? ==>
              var ids := SeenIds(files).value;
              var f := r.value.value;
              && SeenIds(files).Ok?
              && f.id !in ids
              && ParseInt(IdField(f.name)) == Some(f.id)
              && |IdField(f.name)| == (if |IntToStr(f.id)| >= IdWidth(files) then |IntToStr(f.id)| else IdWidth(files))
              && f.name == IdField(f.name) + "_" + timeStr + PicksSuffix
              && (style == FillStyle ==> 0 <= f.id && forall k :: 0 <= k < f.id ==> k in ids)
              && (style == NextStyle ==> f.id == NextId(ids))
  {
    if archDir == "" {
      return Ok(None);
    }
    var seen := SeenIds(files);
    if seen.Err? {
      return Err(seen.error);
    }
    var ids := seen.value;
    var id;
    if style == FillStyle {
      id := FillId(ids);
    } else if style == NextStyle {
      id := NextId(ids);
    } else {
      return Ok(None);
    }
    var width := IdWidth(files);
    var name := PickFileName(id, width, timeStr);
    PickFileNameId(id, width, timeStr);
    IntToStrNoUnderscore(id);
    r := Ok(Some(NewPickFile(id, name)));
  }
}

=== FILE: picks.dfy ===
/** The pick table (`pickSet`, rows of station, pick type, time) and the two
    pruning rules applied to it: dropping rows whose pick type is not
    configured (`remUnknownPickTypes`) and dropping the oldest picks of a
    type on a station beyond the configured maximum (`remExcessPicks`). */
module Picks {
  import opened Basics

  /** One row of the pick table; all three columns are text. */
  datatype Pick = Pick(sta: string, kind: string, time: string)

  // ------------------------------------------------------ unknown types

  /** The rows whose pick type is configured, in table order. */
  function KnownOnly(rows: seq<Pick>, known: set<string>): (r: seq<Pick>)
    ensures forall p :: p in r <==> p in rows && p.kind in known
    ensures |r| <= |rows|
  {
    if |rows| == 0 then []
    else (if rows[0].kind in known then [rows[0]] else []) + KnownOnly(rows[1..], known)
  }

  /** `pickSet[np.where(pickSet[:,1] != kind)]`. */
  function DropKind(rows: seq<Pick>, kind: string): (r: seq<Pick>)
  {
    if |rows| == 0 then []
    else (if rows[0].kind != kind then [rows[0]] else []) + DropKind(rows[1..], kind)
  }

  /** The rows that survive after the unknown types among `visited` were
      dropped. */
  function KeptAfter(rows: seq<Pick>, known: set<string>, visited: set<string>): seq<Pick>
  {
    if |rows| == 0 then []
    else
      (if rows[0].kind in known || rows[0].kind !in visited then [rows[0]] else [])
      + KeptAfter(rows[1..], known, visited)
  }

  function Elems(xs: seq<string>): (s: set<string>)
    ensures forall x :: x in s <==> x in xs
  {
    set x | x in xs
  }

  lemma {:induction false} DropKindStep(rows: seq<Pick>, known: set<string>, visited: set<string>, kind: string)
    requires kind !in known
    ensures DropKind(KeptAfter(rows, known, visited), kind) == KeptAfter(rows, known, visited + {kind})
  {
    if |rows| > 0 {
      DropKindStep(rows[1..], known, visited, kind);
      var head := if rows[0].kind in known || rows[0].kind !in visited then [rows[0]] else [];
      assert KeptAfter(rows, known, visited) == head + KeptAfter(rows[1..], known, visited);
      DropKindConcat(head, KeptAfter(rows[1..], known, visited), kind);
    }
  }

  lemma {:induction false} DropKindConcat(xs: seq<Pick>, ys: seq<Pick>, kind: string)
    ensures DropKind(xs + ys, kind) == DropKind(xs, kind) + DropKind(ys, kind)
  {
    if |xs| > 0 {
      assert (xs + ys)[1..] == xs[1..] + ys;
      DropKindConcat(xs[1..], ys, kind);
    } else {
      assert xs + ys == ys;
    }
  }

  lemma {:induction false} KeptAfterKnown(rows: seq<Pick>, known: set<string>, visited: set<string>, kind: string)
    requires kind in known
    ensures KeptAfter(rows, known, visited + {kind}) == KeptAfter(rows, known, visited)
  {
    if |rows| > 0 {
      KeptAfterKnown(rows[1..], known, visited, kind);
    }
  }

  lemma {:induction false} KeptAfterAll(rows: seq<Pick>, known: set<string>, visited: set<string>)
    requires forall i :: 0 <= i < |rows| ==> rows[i].kind in visited
    ensures KeptAfter(rows, known, visited) == KnownOnly(rows, known)
  {
    if |rows| > 0 {
      assert forall i :: 1 <= i < |rows| ==> rows[1..][i - 1] == rows[i];
      KeptAfterAll(rows[1..], known, visited);
    }
  }

  lemma {:induction false} KeptAfterNone(rows: seq<Pick>, known: set<string>)
    ensures KeptAfter(rows, known, {}) == rows
  {
    if |rows| > 0 {
      KeptAfterNone(rows[1..], known);
      assert rows == [rows[0]] + rows[1..];
    }
  }

  /** `remUnknownPickTypes`: each type of the table that is not configured
      is reported and its rows dropped; configured rows keep their order.
      `seen` is the listing of the types present that the loop visits
      (`np.unique`, which sorts them); the result is the same for every
      such listing. */
  method RemUnknownPickTypes(rows: seq<Pick>, known: set<string>, seen: seq<string>)
    returns (kept: seq<Pick>, removed: seq<string>)
    requires forall k :: k in seen <==> exists i :: 0 <= i < |rows| && rows[i].kind == k
    ensures kept == KnownOnly(rows, known)
    ensures forall k :: k in removed <==> k !in known && exists i :: 0 <= i < |rows| && rows[i].kind == k
    ensures forall j :: 0 <= j < |removed| ==> removed[j] in seen
  {
    kept := rows;
    removed := [];
    KeptAfterNone(rows, known);
    assert Elems(seen[..0]) == {};
    for j := 0 to |seen|
      invariant kept == KeptAfter(rows, known, Elems(seen[..j]))
      invariant forall k :: k in removed <==> k !in known && k in seen[..j]
    {
      assert (Elems(seen[..j + 1])) == (Elems(seen[..j])) + {seen[j]} by {
        assert seen[..j + 1] == seen[..j] + [seen[j]];
      }
      assert forall k :: k in seen[..j + 1] <==> k in seen[..j] || k == seen[j] by {
        assert seen[..j + 1] == seen[..j] + [seen[j]];
      }
      if seen[j] !in known {
        DropKindStep(rows, known, Elems(seen[..j]), seen[j]);
        kept := DropKind(kept, seen[j]);
        removed := removed + [seen[j]];
      } else {
        KeptAfterKnown(rows, known, Elems(seen[..j]), seen[j]);
      }
    }
    assert seen[..|seen|] == seen;
    KeptAfterAll(rows, known, Elems(seen));
  }

  // ------------------------------------------------------- excess picks

  /** Row indices from `start` on holding picks of `kind` at `sta`
      (`np.where(...)[0]`); `GroupFromExact` states what it lists. */
  function GroupFrom(rows: seq<Pick>, sta: string, kind: string, start: nat): seq<nat>
    requires start <= |rows|
    decreases |rows| - start
  {
    if start == |rows| then []
    else (if rows[start].sta == sta && rows[start].kind == kind then [start] else []) +
         GroupFrom(rows, sta, kind, start + 1)
  }

  /** The candidate indices are exactly the matching rows, ascending. */
  lemma {:induction false} GroupFromExact(rows: seq<Pick>, sta: string, kind: string, start: nat)
    requires start <= |rows|
    ensures forall x :: x in GroupFrom(rows, sta, kind, start) <==>
              start <= x < |rows| && rows[x].sta == sta && rows[x].kind == kind
    ensures forall a, b :: 0 <= a < b < |GroupFrom(rows, sta, kind, start)| ==>
              GroupFrom(rows, sta, kind, start)[a] < GroupFrom(rows, sta, kind, start)[b]
    decreases |rows| - start
  {
    if start < |rows| {
      var rest := GroupFrom(rows, sta, kind, start + 1);
      GroupFromExact(rows, sta, kind, start + 1);
      if rows[start].sta == sta && rows[start].kind == kind {
        assert forall b :: 0 <= b < |rest| ==> rest[b] in rest;
        assert GroupFrom(rows, sta, kind, start) == [start] + rest;
      } else {
        assert GroupFrom(rows, sta, kind, start) == [] + rest;
      }
    }
  }

  /** The stop index of Python's `xs[:-m]` on a list of length n. */
  function SliceStop(n: nat, m: int): (stop: nat)
    ensures stop <= n
    ensures 0 < m <= n ==> stop == n - m
  {
    if m > 0 then (if n - m < 0 then 0 else n - m)
    else if -m > n then n else -m
  }

  /** The rows of one station and type that are deleted for a maximum of m:
      the oldest ones, `np.sort(potIdxs)[:-m]`, when there are more than m. */
  function Deleted(rows: seq<Pick>, sta: string, kind: string, m: int): (d: set<nat>)
    ensures forall x :: x in d ==> x < |rows| && rows[x].sta == sta && rows[x].kind == kind
  {
    GroupFromExact(rows, sta, kind, 0);
    var g := GroupFrom(rows, sta, kind, 0);
    if |g| > m then
      var front := g[..SliceStop(|g|, m)];
      assert forall x :: x in front ==> x in g;
      set x | x in front
    else {}
  }

  /** The indices gathered by the double loop over types and stations; the
      maximum of a type is looked up once a station is visited, so a type
      missing from the maxima raises only when `stas` is non-empty. */
  function ExcessIdxs(rows: seq<Pick>, stas: seq<string>, kinds: seq<string>, maxCount: map<string, int>): (r: Result<set<nat>>)
    ensures r.Err? <==> |stas| > 0 && exists j :: 0 <= j < |kinds| && kinds[j] !in maxCount
    ensures r.Ok? ==> forall x :: x in r.value <==>
              exists j, s :: 0 <= j < |kinds| && 0 <= s < |stas| && x in Deleted(rows, stas[s], kinds[j], maxCount[kinds[j]])
  {
    if |kinds| == 0 then Ok({})
    else if |stas| > 0 && kinds[0] !in maxCount then Err(KeyError(kinds[0]))
    else
      assert forall j :: 1 <= j < |kinds| ==> kinds[j] == kinds[1..][j - 1];
      match ExcessIdxs(rows, stas, kinds[1..], maxCount)
      case Err(err) => Err(err)
      case Ok(rest) =>
        if |stas| == 0 then Ok(rest)
        else
          var here := set x, s | 0 <= s < |stas| && x in Deleted(rows, stas[s], kinds[0], maxCount[kinds[0]]) :: x;
          Ok(here + rest)
  }

  /** The row indices that survive a deletion. */
  function Survivors(rows: seq<Pick>, del: set<nat>, start: nat): set<nat>
  {
    set i: nat | start <= i < |rows| && i !in del
  }

  /** The rows whose index is not deleted, in table order
      (`pickSet[keepIdxs]`); `KeepRowsAppend` pins the order. */
  function KeepRows(rows: seq<Pick>, del: set<nat>): (r: seq<Pick>)
    ensures |r| == |Survivors(rows, del, 0)|
    ensures forall p :: p in r <==> exists i :: 0 <= i < |rows| && i !in del && rows[i] == p
  {
    KeepFrom(rows, del, 0)
  }

  function KeepFrom(rows: seq<Pick>, del: set<nat>, start: nat): (r: seq<Pick>)
    requires start <= |rows|
    ensures |r| == |Survivors(rows, del, start)|
    ensures forall p :: p in r <==> exists i :: start <= i < |rows| && i !in del && rows[i] == p
    decreases |rows| - start
  {
    if start == |rows| then
      assert Survivors(rows, del, start) == {};
      []
    else
      var here: set<nat> := if start in del then {} else {start};
      assert Survivors(rows, del, start) == here + Survivors(rows, del, start + 1);
      assert here !! Survivors(rows, del, start + 1);
      (if start in del then [] else [rows[start]]) + KeepFrom(rows, del, start + 1)
  }

  /** A row appended to the table is kept at the end exactly when its index
      is not deleted: the kept rows keep their table order and each row
      appears once per surviving index. */
  lemma KeepRowsAppend(rows: seq<Pick>, p: Pick, del: set<nat>)
    ensures KeepRows(rows + [p], del) == KeepRows(rows, del) + (if |rows| in del then [] else [p])
  {
    KeepFromAppend(rows, p, del, 0);
  }

  lemma {:induction false} KeepFromAppend(rows: seq<Pick>, p: Pick, del: set<nat>, start: nat)
    requires start <= |rows|
    ensures KeepFrom(rows + [p], del, start) == KeepFrom(rows, del, start) + (if |rows| in del then [] else [p])
    decreases |rows| - start
  {
    var tail: seq<Pick> := if |rows| in del then [] else [p];
    if start == |rows| {
      assert KeepFrom(rows + [p], del, start + 1) == [];
      assert (rows + [p])[start] == p;
    } else {
      KeepFromAppend(rows, p, del, start + 1);
      assert (rows + [p])[start] == rows[start];
      var head: seq<Pick> := if start in del then [] else [rows[start]];
      assert head + (KeepFrom(rows, del, start + 1) + tail) == (head + KeepFrom(rows, del, start + 1)) + tail;
    }
  }

  /** `remExcessPicks` as written: with no explicit types it iterates the
      preference object instead of its dictionary, which raises. */
  function RemExcessPicksAsWritten(rows: seq<Pick>, checkStas: Option<seq<string>>, checkKinds: Option<seq<string>>,
                                   staSort: seq<string>, maxCount: map<string, int>): (r: Result<seq<Pick>>)
    ensures checkKinds.None? ==> r.Err? && r.error.TypeError?
  {
    var stas := if checkStas.Some? then checkStas.value else staSort;
    match checkKinds
    case None => Err(TypeError("'Pref' object is not iterable"))
    case Some(kinds) =>
      match ExcessIdxs(rows, stas, kinds, maxCount)
      case Err(err) => Err(err)
      case Ok(del) => Ok(KeepRows(rows, del))
  }

  /** `remExcessPicks` with the default types read from the maxima's keys
      (`prefKinds` lists them in dictionary order); otherwise identical. */
  function RemExcessPicks(rows: seq<Pick>, checkStas: Option<seq<string>>, checkKinds: Option<seq<string>>,
                          staSort: seq<string>, maxCount: map<string, int>, prefKinds: seq<string>): (r: Result<seq<Pick>>)
    requires forall k :: k in prefKinds <==> k in maxCount
    ensures checkKinds.None? ==> r.Ok?
    ensures checkKinds.Some? ==> r == RemExcessPicksAsWritten(rows, checkStas, checkKinds, staSort, maxCount)
  {
    var stas := if checkStas.Some? then checkStas.value else staSort;
    var kinds := if checkKinds.Some? then checkKinds.value else prefKinds;
    match ExcessIdxs(rows, stas, kinds, maxCount)
    case Err(err) => Err(err)
    case Ok(del) => Ok(KeepRows(rows, del))
  }

  // ------------------------------------------- which picks are removed

  /** How many later rows share the station and type of row i. */
  function Later(rows: seq<Pick>, i: nat): nat
    requires i < |rows|
  {
    |GroupFrom(rows, rows[i].sta, rows[i].kind, i + 1)|
  }

  /** A group listing splits around each of its members. */
  lemma {:induction false} GroupSplit(rows: seq<Pick>, sta: string, kind: string, start: nat, i: nat) returns (pre: seq<nat>)
    requires start <= i < |rows| && rows[i].sta == sta && rows[i].kind == kind
    ensures GroupFrom(rows, sta, kind, start) == pre + [i] + GroupFrom(rows, sta, kind, i + 1)
    decreases i - start
  {
    var post := GroupFrom(rows, sta, kind, i + 1);
    if start == i {
      pre := [];
    } else {
      var pre' := GroupSplit(rows, sta, kind, start + 1, i);
      var rest := GroupFrom(rows, sta, kind, start + 1);
      if rows[start].sta == sta && rows[start].kind == kind {
        assert GroupFrom(rows, sta, kind, start) == [start] + rest;
        pre := [start] + pre';
        assert [start] + (pre' + [i] + post) == pre + [i] + post;
      } else {
        assert GroupFrom(rows, sta, kind, start) == rest;
        pre := pre';
      }
    }
  }

  /** With a maximum of at least one, a row is deleted for its station and
      type exactly when at least that many later rows share both. */
  lemma DeletedExactly(rows: seq<Pick>, sta: string, kind: string, m: int, i: nat)
    requires m >= 1 && i < |rows|
    ensures i in Deleted(rows, sta, kind, m) <==> rows[i].sta == sta && rows[i].kind == kind && Later(rows, i) >= m
  {
    if rows[i].sta == sta && rows[i].kind == kind {
      GroupFromExact(rows, sta, kind, 0);
      var g := GroupFrom(rows, sta, kind, 0);
      var post := GroupFrom(rows, sta, kind, i + 1);
      var pre := GroupSplit(rows, sta, kind, 0, i);
      assert g[|pre|] == i;
      if |g| > m {
        var stop := SliceStop(|g|, m);
        assert stop == |pre| + 1 + |post| - m;
        if |post| >= m {
          assert g[..stop][|pre|] == i;
        }
      }
    }
  }

  /** Rows of the checked stations and types that have at least the
      configured maximum of newer picks of the same kind beside them. */
  ghost predicate Excess(rows: seq<Pick>, stas: seq<string>, kinds: seq<string>, maxCount: map<string, int>, i: nat)
    requires i < |rows|
  {
    rows[i].sta in stas && rows[i].kind in kinds && rows[i].kind in maxCount &&
    Later(rows, i) >= maxCount[rows[i].kind]
  }

  /** With every checked maximum at least one (the preference bound), the
      deleted indices are exactly the excess rows: each checked station keeps
      its newest m picks of each checked type. */
  lemma ExcessIdxsExactly(rows: seq<Pick>, stas: seq<string>, kinds: seq<string>, maxCount: map<string, int>)
    requires forall k :: k in maxCount ==> maxCount[k] >= 1
    ensures var r := ExcessIdxs(rows, stas, kinds, maxCount);
            r.Ok? ==> forall i :: 0 <= i < |rows| ==> (i in r.value <==> Excess(rows, stas, kinds, maxCount, i))
  {
    var r := ExcessIdxs(rows, stas, kinds, maxCount);
    if r.Ok? {
      forall i | 0 <= i < |rows|
        ensures i in r.value <==> Excess(rows, stas, kinds, maxCount, i)
      {
        if i in r.value {
          var j, s :| 0 <= j < |kinds| && 0 <= s < |stas| && i in Deleted(rows, stas[s], kinds[j], maxCount[kinds[j]]);
          DeletedExactly(rows, stas[s], kinds[j], maxCount[kinds[j]], i);
        } else if Excess(rows, stas, kinds, maxCount, i) {
          var j :| 0 <= j < |kinds| && kinds[j] == rows[i].kind;
          var s :| 0 <= s < |stas| && stas[s] == rows[i].sta;
          DeletedExactly(rows, stas[s], kinds[j], maxCount[kinds[j]], i);
        }
      }
    }
  }

  /** The pruned table: the rows that are not excess, in table order. */
  lemma RemExcessPicksKeepsNewest(rows: seq<Pick>, checkStas: Option<seq<string>>, checkKinds: Option<seq<string>>,
                                  staSort: seq<string>, maxCount: map<string, int>, prefKinds: seq<string>)
    requires forall k :: k in prefKinds <==> k in maxCount
    requires forall k :: k in maxCount ==> maxCount[k] >= 1
    ensures var r := RemExcessPicks(rows, checkStas, checkKinds, staSort, maxCount, prefKinds);
            var stas := if checkStas.Some? then checkStas.value else staSort;
            var kinds := if checkKinds.Some? then checkKinds.value else prefKinds;
            r.Ok? ==> r.value == KeepRows(rows, set i | 0 <= i < |rows| && Excess(rows, stas, kinds, maxCount, i))
  {
    var stas := if checkStas.Some? then checkStas.value else staSort;
    var kinds := if checkKinds.Some? then checkKinds.value else prefKinds;
    ExcessIdxsExactly(rows, stas, kinds, maxCount);
    var r := ExcessIdxs(rows, stas, kinds, maxCount);
    if r.Ok? {
      var ex := set i | 0 <= i < |rows| && Excess(rows, stas, kinds, maxCount, i);
      KeepFromSameBelow(rows, r.value, ex, 0);
    }
  }

  /** Keeping rows only depends on which table indices are deleted. */
  lemma {:induction false} KeepFromSameBelow(rows: seq<Pick>, d1: set<nat>, d2: set<nat>, start: nat)
    requires start <= |rows|
    requires forall i :: start <= i < |rows| ==> (i in d1 <==> i in d2)
    ensures KeepFrom(rows, d1, start) == KeepFrom(rows, d2, start)
    decreases |rows| - start
  {
    if start < |rows| {
      KeepFromSameBelow(rows, d1, d2, start + 1);
    }
  }

  /** The default-types discrepancy on a concrete table: two P picks at
      station A with a maximum of one. As written the call raises; the
      corrected rule keeps the newer pick. */
  lemma DefaultKindsExample()
    ensures var rows := [Pick("A", "P", "1"), Pick("A", "P", "2")];
            var maxCount := map["P" := 1];
            && RemExcessPicksAsWritten(rows, None, None, ["A"], maxCount).Err?
            && RemExcessPicks(rows, None, None, ["A"], maxCount, ["P"]) == Ok([Pick("A", "P", "2")])
  {
    var rows := [Pick("A", "P", "1"), Pick("A", "P", "2")];
    var maxCount := map["P" := 1];
    assert GroupFrom(rows, "A", "P", 2) == [];
    assert GroupFrom(rows, "A", "P", 1) == [1];
    assert GroupFrom(rows, "A", "P", 0) == [0, 1];
    assert [0, 1][..1] == [0];
    assert Deleted(rows, "A", "P", 1) == {0};
    var r := ExcessIdxs(rows, ["A"], ["P"], maxCount);
    forall x ensures x in r.value <==> x == 0 {
      if x == 0 {
        assert x in Deleted(rows, ["A"][0], ["P"][0], maxCount["P"]);
      }
    }
    assert r.value == {0};
    assert KeepFrom(rows, {0}, 2) == [];
    assert KeepFrom(rows, {0}, 1) == [Pick("A", "P", "2")];
    assert KeepRows(rows, {0}) == [Pick("A", "P", "2")];
  }
}

=== FILE: plugins.dfy ===
/** The example action functions shipped with the program: cycling the pick
    mode, jumping to the first or last page, and the colour-assignment and
    source toggles. Each is a pure function of its inputs. */
module ExamplePlugins {
  import opened Basics
  import opened Values
  import opened Lex
  import Paging

  // ------------------------------------------------------- togglePickMode

  /** `togglePickMode`: the pick type after the current one in sorted
      order, wrapping around; an unknown current mode moves to position
      1 (modulo the count); no pick types at all divides by zero. */
  function TogglePickMode(curMode: string, keys: seq<string>): (r: Result<string>)
    requires NoDuplicates(keys)
    ensures r.Err? <==> |keys| == 0
    ensures r.Err? ==> r.error == ZeroDivisionError
    ensures r.Ok? ==> r.value in keys
    ensures r.Ok? && curMode !in keys ==> r.value == Sort(keys)[1 % |keys|]
  {
    NextMode(curMode, Sort(keys))
  }

  /** The step of `togglePickMode` on the already sorted list of modes. */
  function NextMode(curMode: string, modes: seq<string>): (r: Result<string>)
    ensures r.Err? <==> |modes| == 0
    ensures r.Err? ==> r.error == ZeroDivisionError
    ensures r.Ok? ==> r.value in modes
  {
    if |modes| == 0 then Err(ZeroDivisionError)
    else
      var idx := if curMode in modes then IndexOf(modes, curMode) else 0;
      Ok(modes[(idx + 1) % |modes|])
  }

  /** Positions in a strictly sorted list follow the order of their values. */
  lemma SortedPositions(modes: seq<string>, i: nat, j: nat)
    requires StrictlySorted(modes) && i < |modes| && j < |modes|
    ensures Less(modes[i], modes[j]) <==> i < j
  {
    if j < i {
      LessAsymmetric(modes[j], modes[i]);
    } else if i == j {
      LessIrreflexive(modes[i]);
    }
  }

  /** On a sorted list, a mode below some other mode steps to the next
      position, which holds the least mode above it. */
  lemma NextModeNextLarger(modes: seq<string>, idx: nat, j0: nat)
    requires StrictlySorted(modes) && idx < |modes| && j0 < |modes|
    requires Less(modes[idx], modes[j0])
    ensures idx + 1 < |modes| && NextMode(modes[idx], modes) == Ok(modes[idx + 1])
    ensures Less(modes[idx], modes[idx + 1])
    ensures forall j :: 0 <= j < |modes| && Less(modes[idx], modes[j]) ==>
              j == idx + 1 || Less(modes[idx + 1], modes[j])
  {
    SortedPositions(modes, idx, j0);
    IndexOfSorted(modes, idx);
    assert (idx + 1) % |modes| == idx + 1;
    SortedPositions(modes, idx, idx + 1);
    forall j | 0 <= j < |modes| && Less(modes[idx], modes[j])
      ensures j == idx + 1 || Less(modes[idx + 1], modes[j])
    {
      SortedPositions(modes, idx, j);
      SortedPositions(modes, idx + 1, j);
    }
  }

  /** A known mode that is not the largest moves to the next larger one. */
  lemma TogglePickModeNextLarger(curMode: string, keys: seq<string>, k0: string)
    requires NoDuplicates(keys) && curMode in keys && k0 in keys && Less(curMode, k0)
    ensures var r := TogglePickMode(curMode, keys).value;
            Less(curMode, r) && forall k :: k in keys && Less(curMode, k) ==> k == r || Less(r, k)
  {
    var modes := Sort(keys);
    var idx := IndexOf(modes, curMode);
    NextModeNextLarger(modes, idx, IndexOf(modes, k0));
    forall k | k in keys && Less(curMode, k)
      ensures k == modes[idx + 1] || Less(modes[idx + 1], k)
    {
      var j := IndexOf(modes, k);
      assert modes[j] == k;
    }
  }

  /** In a duplicate-free list the mode at position p steps to position
      p + 1, and the last one to position 0. */
  lemma NextModeAt(modes: seq<string>, p: nat)
    requires NoDuplicates(modes) && p < |modes|
    ensures p + 1 < |modes| ==> NextMode(modes[p], modes) == Ok(modes[p + 1])
    ensures p + 1 == |modes| ==> NextMode(modes[p], modes) == Ok(modes[0])
  {
    IndexOfDistinct(modes, p);
    SuccMod(p, |modes|);
  }

  lemma SuccMod(i: nat, n: nat)
    requires i < n
    ensures (i + 1) % n == if i + 1 < n then i + 1 else 0
  {
  }

  /** On a sorted list the last mode steps to the first, the least one. */
  lemma NextModeWraps(modes: seq<string>)
    requires StrictlySorted(modes) && |modes| > 0
    ensures NextMode(modes[|modes| - 1], modes) == Ok(modes[0])
    ensures forall j :: 0 < j < |modes| ==> Less(modes[0], modes[j])
  {
    SortedDistinct(modes);
    NextModeAt(modes, |modes| - 1);
  }

  /** The largest mode wraps around to the smallest. */
  lemma TogglePickModeWraps(curMode: string, keys: seq<string>)
    requires NoDuplicates(keys) && curMode in keys && forall k :: k in keys ==> !Less(curMode, k)
    ensures var r := TogglePickMode(curMode, keys).value;
            forall k :: k in keys ==> k == r || Less(r, k)
  {
    var modes := Sort(keys);
    var n := |modes|;
    var idx := IndexOf(modes, curMode);
    assert modes[n - 1] in keys;
    SortedPositions(modes, idx, n - 1);
    assert modes[idx] == modes[n - 1];
    NextModeWraps(modes);
    forall k | k in keys ensures k == modes[0] || Less(modes[0], k) {
      var j := IndexOf(modes, k);
      assert modes[j] == k;
    }
  }

  /** Toggling m times over a list of modes. */
  function ToggleTimes(cur: string, modes: seq<string>, m: nat): string
    requires |modes| > 0
    decreases m
  {
    if m == 0 then cur else ToggleTimes(NextMode(cur, modes).value, modes, m - 1)
  }

  lemma {:induction false} ToggleTimesAdd(cur: string, modes: seq<string>, a: nat, b: nat)
    requires |modes| > 0
    ensures ToggleTimes(cur, modes, a + b) == ToggleTimes(ToggleTimes(cur, modes, a), modes, b)
    decreases a
  {
    if a > 0 {
      ToggleTimesAdd(NextMode(cur, modes).value, modes, a - 1, b);
    }
  }

  /** In a duplicate-free list, `index` finds every position. */
  lemma IndexOfDistinct(modes: seq<string>, p: nat)
    requires NoDuplicates(modes) && p < |modes|
    ensures IndexOf(modes, modes[p]) == p
  {
  }

  lemma {:induction false} ToggleWalk(modes: seq<string>, p: nat, m: nat)
    requires NoDuplicates(modes) && p + m < |modes|
    ensures ToggleTimes(modes[p], modes, m) == modes[p + m]
    decreases m
  {
    if m > 0 {
      NextModeAt(modes, p);
      ToggleWalk(modes, p + 1, m - 1);
    }
  }

  /** Toggling once per pick type returns to the starting type, and no
      smaller positive number of toggles does. */
  lemma TogglePickModeCycles(keys: seq<string>, cur: string)
    requires NoDuplicates(keys) && cur in keys
    ensures var modes := Sort(keys);
            ToggleTimes(cur, modes, |modes|) == cur &&
            forall m :: 0 < m < |modes| ==> ToggleTimes(cur, modes, m) != cur
  {
    var modes := Sort(keys);
    SortedDistinct(modes);
    var p := IndexOf(modes, cur);
    ModesCycle(modes, p);
    forall m | 0 < m < |modes| ensures ToggleTimes(cur, modes, m) != cur {
      ModesNoEarlyReturn(modes, p, m);
    }
  }

  /** After passing the last mode the walk continues from the first. */
  lemma ModesWrap(modes: seq<string>, p: nat, m: nat)
    requires NoDuplicates(modes) && p < |modes| && |modes| <= p + m < 2 * |modes|
    ensures ToggleTimes(modes[p], modes, m) == modes[p + m - |modes|]
  {
    var n := |modes|;
    var a: nat := n - 1 - p;
    var b: nat := p + m - n;
    ToggleTimesAdd(modes[p], modes, a, 1 + b);
    ToggleWalk(modes, p, a);
    FromLast(modes, b);
  }

  /** From the last mode, 1 + b toggles reach position b. */
  lemma FromLast(modes: seq<string>, b: nat)
    requires NoDuplicates(modes) && b < |modes|
    ensures ToggleTimes(modes[|modes| - 1], modes, 1 + b) == modes[b]
  {
    NextModeAt(modes, |modes| - 1);
    ToggleTimesAdd(modes[|modes| - 1], modes, 1, b);
    ToggleWalk(modes, 0, b);
  }

  lemma ModesCycle(modes: seq<string>, p: nat)
    requires NoDuplicates(modes) && p < |modes|
    ensures ToggleTimes(modes[p], modes, |modes|) == modes[p]
  {
    ModesWrap(modes, p, |modes|);
  }

  lemma ModesNoEarlyReturn(modes: seq<string>, p: nat, m: nat)
    requires NoDuplicates(modes) && p < |modes| && 0 < m < |modes|
    ensures ToggleTimes(modes[p], modes, m) != modes[p]
  {
    if p + m < |modes| {
      ToggleWalk(modes, p, m);
    } else {
      ModesWrap(modes, p, m);
    }
  }

  // ------------------------------------------------------------ goToPage

  const LastPage: int := 99999

  /** `goToPage`: 99999 for the keyword value 'last', 0 otherwise; a call
      without the keyword raises. */
  function GoToPage(kwargs: map<string, Value>): (r: Result<int>)
    ensures r.Err? <==> "goToPage" !in kwargs
    ensures r.Ok? ==> (r.value == LastPage <==> ShowsText(kwargs["goToPage"], "last"))
    ensures r.Ok? ==> r.value == 0 || r.value == LastPage
  {
    if "goToPage" !in kwargs then Err(KeyError("goToPage"))
    else if ShowsText(kwargs["goToPage"], "last") then Ok(LastPage) else Ok(0)
  }

  /** The page number it returns, once clipped by the page update rule, is
      the last page for 'last' and the first page otherwise. */
  lemma GoToPageLands(kwargs: map<string, Value>, numSta: nat, perPage: int)
    requires "goToPage" in kwargs && 0 < perPage && 0 < numSta <= LastPage
    ensures var page := Paging.UpdateCurPage(GoToPage(kwargs).value, numSta, perPage).value;
            page == (if ShowsText(kwargs["goToPage"], "last") then Paging.MaxPage(numSta, perPage).value else 0)
  {
    Paging.LastPageSentinel(numSta, perPage);
    Paging.MaxPageRange(numSta, perPage);
  }

  // ---------------------------------------------------- toggleTraceColor

  /** Channel patterns assigned to pen tags. */
  type Assign = map<string, seq<string>>

  const Horizontal: seq<string> := ["*1", "*2", "*E", "*N"]
  const ZLowlit: Assign := map["lowlight" := ["*Z"], "highlight" := Horizontal]
  const ZHighlit: Assign := map["highlight" := ["*Z"], "lowlight" := Horizontal]

  /** `toggleTraceColor`: vertical channels highlighted when they were
      lowlighted, lowlighted otherwise. */
  function ToggleTraceColor(cur: Assign): (r: Assign)
    ensures r == ZLowlit || r == ZHighlit
    ensures r == ZHighlit <==> "lowlight" in cur && "*Z" in cur["lowlight"]
  {
    assert ZLowlit["lowlight"] != ZHighlit["lowlight"];
    if "lowlight" !in cur then ZLowlit
    else if "*Z" in cur["lowlight"] then ZHighlit
    else ZLowlit
  }

  /** Applied to its own output it alternates with period 2. */
  lemma ToggleTraceColorPeriod(cur: Assign)
    ensures var a := ToggleTraceColor(cur);
            ToggleTraceColor(a) != a && ToggleTraceColor(ToggleTraceColor(a)) == a
  {
    assert "*Z" !in Horizontal;
  }

  // ------------------------------------------------- alternateTraceColor

  const ZFirst: Assign := map["alt1" := ["*Z"], "alt2" := ["*2", "*N"], "alt3" := ["*1", "*E"]]
  const ZSecond: Assign := map["alt2" := ["*Z"], "alt3" := ["*2", "*N"], "alt1" := ["*1", "*E"]]
  const ZThird: Assign := map["alt3" := ["*Z"], "alt1" := ["*2", "*N"], "alt2" := ["*1", "*E"]]

  /** `alternateTraceColor`: moves the vertical channel to the next of the
      three groups. With `alt1` present but `*Z` in no group the function
      falls off its end and returns `None`; a group it must look at that is
      missing raises. */
  function AlternateTraceColor(cur: Assign): (r: Result<Option<Assign>>)
    ensures "alt1" !in cur ==> r == Ok(Some(ZFirst))
    ensures r.Ok? && r.value.Some? ==> r.value.value in {ZFirst, ZSecond, ZThird}
    ensures "alt1" in cur && "*Z" in cur["alt1"] ==> r == Ok(Some(ZSecond))
    ensures r == Ok(None) <==>
              "alt1" in cur && "alt2" in cur && "alt3" in cur &&
              "*Z" !in cur["alt1"] && "*Z" !in cur["alt2"] && "*Z" !in cur["alt3"]
    ensures r.Err? <==>
              "alt1" in cur && "*Z" !in cur["alt1"] &&
              ("alt2" !in cur || ("*Z" !in cur["alt2"] && "alt3" !in cur))
  {
    if "alt1" !in cur then Ok(Some(ZFirst))
    else if "*Z" in cur["alt1"] then Ok(Some(ZSecond))
    else if "alt2" !in cur then Err(KeyError("alt2"))
    else if "*Z" in cur["alt2"] then Ok(Some(ZThird))
    else if "alt3" !in cur then Err(KeyError("alt3"))
    else if "*Z" in cur["alt3"] then Ok(Some(ZFirst))
    else Ok(None)
  }

  /** Starting from an assignment without `alt1`, repeated application
      cycles through three assignments. */
  lemma AlternateTraceColorPeriod(cur: Assign)
    requires "alt1" !in cur
    ensures var a1 := AlternateTraceColor(cur).value.value;
            var a2 := AlternateTraceColor(a1).value.value;
            var a3 := AlternateTraceColor(a2).value.value;
            a1 != a2 && a2 != a3 && a3 != a1 && AlternateTraceColor(a3) == Ok(Some(a1))
  {
    assert "*Z" !in ZSecond["alt1"] && "*Z" in ZSecond["alt2"];
    assert "*Z" !in ZThird["alt1"] && "*Z" !in ZThird["alt2"] && "*Z" in ZThird["alt3"];
    assert ZFirst["alt1"] != ZSecond["alt1"] && ZSecond["alt1"] != ZThird["alt1"] && ZThird["alt1"] != ZFirst["alt1"];
  }

  // --------------------------------------------- alternateStaColorAssign

  /** A row of station metadata; its first column is the station name. */
  datatype StaMetaRow = StaMetaRow(sta: string, rest: seq<string>)

  /** The station argument: the sorted names, or the metadata table. */
  datatype StationTable = Names(names: seq<string>) | Meta(rows: seq<StaMetaRow>)

  function StationNames(t: StationTable): (names: seq<string>)
    ensures t.Names? ==> names == t.names
    ensures t.Meta? ==> |names| == |t.rows| && forall i :: 0 <= i < |names| ==> names[i] == t.rows[i].sta
  {
    match t
    case Names(ns) => ns
    case Meta(rows) => seq(|rows|, i requires 0 <= i < |rows| => rows[i].sta)
  }

  /** The stations at even positions (`take`) or odd positions (`!take`),
      in order. */
  function Alternate(names: seq<string>, take: bool): (r: seq<string>)
    ensures |r| == (if take then (|names| + 1) / 2 else |names| / 2)
    ensures forall x :: x in r <==> exists i :: 0 <= i < |names| && names[i] == x && ((i % 2 == 0) == take)
  {
    if |names| == 0 then []
    else
      var rest := Alternate(names[1..], !take);
      assert forall i :: 1 <= i < |names| ==> names[i] == names[1..][i - 1] && ((i % 2 == 0) == ((i - 1) % 2 != 0));
      (if take then [names[0]] else []) + rest
  }

  /** What `alternateStaColorAssign` returns: the `$pass` marker, or the two
      colour groups. */
  datatype StaAssign = PassAssign | Groups(alt1: seq<string>, alt2: seq<string>)

  function AsAssign(g: StaAssign): Assign
  {
    match g
    case PassAssign => map[]
    case Groups(a1, a2) => map["alt1" := a1, "alt2" := a2]
  }

  /** `alternateStaColorAssign`: no stations leaves the variable alone;
      otherwise the stations are split by position parity, the first
      station going to `alt2` exactly when it is already in `alt1`. */
  function AlternateStaColorAssign(cur: Assign, table: StationTable): (r: Result<StaAssign>)
    ensures |StationNames(table)| == 0 ==> r == Ok(PassAssign)
    ensures r.Err? <==> |StationNames(table)| > 0 && cur != map[] && "alt1" !in cur
    ensures r.Ok? && r.value.Groups? ==>
              var names := StationNames(table);
              var flip := cur != map[] && names[0] in cur["alt1"];
              && |r.value.alt1| + |r.value.alt2| == |names|
              && r.value.alt1 == Alternate(names, !flip)
              && r.value.alt2 == Alternate(names, flip)
  {
    var names := StationNames(table);
    if |names| == 0 then Ok(PassAssign)
    else if cur == map[] then Ok(Groups(Alternate(names, true), Alternate(names, false)))
    else if "alt1" !in cur then Err(KeyError("alt1"))
    else
      var num := if names[0] in cur["alt1"] then 1 else 0;
      Ok(Groups(Alternate(names, num == 0), Alternate(names, num != 0)))
  }

  /** With distinct station names, feeding the result back in alternates
      with period 2. */
  lemma AlternateStaColorAssignPeriod(cur: Assign, table: StationTable)
    requires NoDuplicates(StationNames(table)) && |StationNames(table)| > 0 && (cur == map[] || "alt1" in cur)
    ensures var g1 := AlternateStaColorAssign(cur, table).value;
            var g2 := AlternateStaColorAssign(AsAssign(g1), table).value;
            g2.Groups? && g2.alt1 == g1.alt2 && g2.alt2 == g1.alt1 &&
            AlternateStaColorAssign(AsAssign(g2), table) == Ok(g1)
  {
    var names := StationNames(table);
    var first := Alternate(names, true);
    var second := Alternate(names, false);
    assert names[0] in first;
    assert names[0] !in second;
    var g1 := AlternateStaColorAssign(cur, table).value;
    assert AsAssign(g1)["alt1"] == g1.alt1;
    var g2 := AlternateStaColorAssign(AsAssign(g1), table).value;
    assert AsAssign(g2)["alt1"] == g2.alt1;
    if g1.alt1 == first {
      assert g2 == Groups(second, first);
    } else {
      assert g2 == Groups(first, second);
    }
  }

  // --------------------------------------------------- toggleTestSources

  /** `toggleTestSources`: 'testing' becomes 'testing2', anything else
      'testing'. */
  function ToggleTestSources(curTag: string): (r: string)
    ensures r == "testing" || r == "testing2"
    ensures r == "testing2" <==> curTag == "testing"
  {
    if curTag == "testing" then "testing2" else "testing"
  }

  /** Two toggles from 'testing' return to it; from then on the tag
      alternates. */
  lemma ToggleTestSourcesPeriod(curTag: string)
    ensures ToggleTestSources(ToggleTestSources("testing")) == "testing"
    ensures ToggleTestSources(ToggleTestSources(ToggleTestSources(curTag))) == ToggleTestSources(curTag)
  {
  }
}

=== FILE: prefs.dfy ===
/** Preferences: read-mostly configuration values, the line-edit validator
    that guards them, and the rules by which a preference takes a new value. */
module Prefs {
  import opened Basics
  import opened Values
  import Numerals

  /** The keyword conditions a line-edit dialog enforces on every checked
      value: `bound: [lo, hi]` and `isOneOf: [...]`. */
  datatype Condition = Condition(bound: Option<(real, real)>, isOneOf: Option<seq<Value>>)

  const NoCondition := Condition(None, None)

  /** The dialog through which a preference is edited. */
  datatype DialogKind = LineEditDialog | ColorDialog | CustomPenDialog | UnknownDialog(name: string)

  /** A preference. `hasFunc` says whether an update function is attached. */
  datatype Pref = Pref(
    tag: string,
    val: Value,
    dataType: PyType,
    dialog: DialogKind,
    hasFunc: bool,
    condition: Condition)

  /** `getVal`: a deep copy, which as a value is the stored value itself. */
  function GetVal(p: Pref): Value
  {
    p.val
  }

  /** `dataType(text)` for the scalar types preferences declare; `None` when
      the conversion raises, as `str()` does on non-ASCII text. */
  function Convert(dataType: PyType, text: string): Option<Value>
  {
    match dataType
    case IntType =>
      (match Numerals.ParseInt(text) case None => None case Some(i) => Some(VInt(i)))
    case FloatType =>
      (match Numerals.ParseFloat(text) case None => None case Some(f) => Some(VFloat(f)))
    case StrType => if IsAscii(text) then Some(VStr(text)) else None
    case BoolType => Some(VBool(text != ""))
    case _ => None
  }

  /** Python 2 `v < x` for a number `x`: `None` sorts below every number,
      every other non-number above. */
  predicate BelowNumber(v: Value, x: real)
  {
    match Number(v)
    case Some(n) => n < x
    case None => v == VNone
  }

  /** Python 2 `v > x` for a number `x`. */
  predicate AboveNumber(v: Value, x: real)
  {
    match Number(v)
    case Some(n) => n > x
    case None => v != VNone
  }

  /** One value passes the condition checks as the dialog codes them. */
  predicate Meets(v: Value, c: Condition)
  {
    && (c.bound.Some? ==> !(BelowNumber(v, c.bound.value.0) || AboveNumber(v, c.bound.value.1)))
    && (c.isOneOf.Some? ==> PyIn(v, c.isOneOf.value))
  }

  /** What the conditions mean: a bounded value is a number inside the closed
      interval, a restricted value equals one of the listed choices. */
  ghost predicate Acceptable(v: Value, c: Condition)
  {
    && (c.bound.Some? ==>
          Number(v).Some? && c.bound.value.0 <= Number(v).value <= c.bound.value.1)
    && (c.isOneOf.Some? ==> exists i :: 0 <= i < |c.isOneOf.value| && PyEq(v, c.isOneOf.value[i]))
  }

  lemma MeetsIsAcceptable(v: Value, c: Condition)
    ensures Meets(v, c) <==> Acceptable(v, c)
  {
  }

  /** The typed value before the condition checks: conversion to the
      declared type, or for a dictionary the parsed text (`text2Dict`, whose
      outcome is `dictText`), where an empty dictionary also counts as a
      failure. */
  function Parsed(text: string, dataType: PyType, dictText: Option<map<string, Value>>): Option<Value>
  {
    if dataType == DictType then
      match dictText
      case None => None
      case Some(m) => if m == map[] then None else Some(VDict(m))
    else Convert(dataType, text)
  }

  /** The values the conditions are applied to: the single value, or every
      value of a dictionary. */
  function Checked(v: Value, dataType: PyType): set<Value>
  {
    if dataType == DictType && v.VDict? then v.entries.Values else {v}
  }

  /** `LineEditDialog.lineEditValue`: the typed value of the edited text, or
      `None` when the text does not convert or a checked value fails a
      condition. */
  function LineEditValue(text: string, dataType: PyType, cond: Condition,
                         dictText: Option<map<string, Value>>): (r: Option<Value>)
    ensures r.Some? <==>
              && Parsed(text, dataType, dictText).Some?
              && forall x :: x in Checked(Parsed(text, dataType, dictText).value, dataType) ==> Acceptable(x, cond)
    ensures r.Some? ==> r == Parsed(text, dataType, dictText)
    ensures dataType == DictType && dictText == Some(map[]) ==> r.None?
  {
    match Parsed(text, dataType, dictText)
    case None => None
    case Some(v) =>
      if dataType == DictType then
        var m := v.entries;
        if forall k :: k in m ==> Meets(m[k], cond) then Some(v)
        else
          assert exists k :: k in m && m[k] in m.Values && !Acceptable(m[k], cond);
          None
      else if Meets(v, cond) then Some(v)
      else
        assert v in Checked(v, dataType);
        None
  }

  /** What a dialog hands back: `(val, ok)`. `None` is a dialog that gave no
      value; a `Some(VNone)` value compares equal to None as well. */
  datatype Reply = Reply(val: Option<Value>, ok: bool)

  /** The reply of a line-edit dialog closed with `accepted` over `text`. */
  function LineEditReply(p: Pref, text: string, dictText: Option<map<string, Value>>, accepted: bool): Reply
  {
    Reply(LineEditValue(text, p.dataType, p.condition, dictText), accepted)
  }

  /** The reply of a colour dialog: the chosen colour, or `(None, False)`
      when the dialog was cancelled. */
  function ColorReply(chosen: Option<int>): Reply
  {
    match chosen
    case Some(rgba) => Reply(Some(VInt(rgba)), true)
    case None => Reply(None, false)
  }

  /** The reply of the custom pen dialog, which edits the table in place
      and always reports success. */
  function PenReply(edited: Value): Reply
  {
    Reply(Some(edited), true)
  }

  /** A preference after `Pref.update`, and whether its update function ran. */
  datatype Updated = Updated(pref: Pref, funcCalled: bool)

  /** `Pref.update(host, init)`: during initialisation the value is kept and
      the update function runs; otherwise the dialog's reply is taken unless
      it was cancelled or carries no value, and only then does the update
      function run. An unrecognised dialog kind behaves as a cancellation. */
  function Update(p: Pref, init: bool, reply: Reply): (u: Updated)
    ensures u.pref.(val := p.val) == p
    ensures init ==> u.pref == p && u.funcCalled == p.hasFunc
    ensures !init && (p.dialog.UnknownDialog? || !reply.ok || reply.val.None? || reply.val == Some(VNone)) ==>
              u.pref == p && !u.funcCalled
    ensures !init && !p.dialog.UnknownDialog? && reply.ok && reply.val.Some? && reply.val.value != VNone ==>
              u.pref.val == reply.val.value && u.funcCalled == p.hasFunc
  {
    if init then Updated(p, p.hasFunc)
    else
      var r := if p.dialog.UnknownDialog? then Reply(None, false) else reply;
      if !r.ok then Updated(p, false)
      else if r.val.None? || r.val.value == VNone then Updated(p, false)
      else Updated(p.(val := r.val.value), p.hasFunc)
  }

  /** A preference edited through its line-edit dialog only ever takes a
      value of which every checked part satisfies its conditions. */
  lemma LineEditUpdateKeepsCondition(p: Pref, text: string, dictText: Option<map<string, Value>>, accepted: bool)
    requires p.dialog == LineEditDialog
    ensures var u := Update(p, false, LineEditReply(p, text, dictText, accepted));
            u.pref == p ||
            forall x :: x in Checked(u.pref.val, p.dataType) ==> Acceptable(x, p.condition)
  {
  }

  /** What `getVal` reads after an update: the accepted reply's value, or the
      old value when the update was an initialisation or was refused. */
  lemma GetValAfterUpdate(p: Pref, init: bool, reply: Reply)
    ensures var v := GetVal(Update(p, init, reply).pref);
            if !init && !p.dialog.UnknownDialog? && reply.ok && reply.val.Some? && reply.val.value != VNone
            then v == reply.val.value
            else v == GetVal(p)
  {
  }
}

=== FILE: values.dfy ===
/** The dynamic values that flow between hot variables, preferences and
    action functions, with the two Python views of them the dispatcher uses:
    the runtime type (`type(v)`) and, for a few values, the text `str(v)`. */
module Values {
  import opened Basics

  /** Runtime types. `NpStringType` is numpy's byte string (`np.string_`);
      `ClassType` stands for any other class (streams, widgets, ...). */
  datatype PyType =
    | NoneType
    | BoolType
    | IntType
    | LongType
    | FloatType
    | StrType
    | NpStringType
    | ListType
    | TupleType
    | DictType
    | ArrayType
    | ClassType(name: string)

  /** Python values. Floats are modelled as exact reals. `VInt` is an
      integer from a literal or `int` arithmetic, which Python 2 promotes to
      `long` only beyond `sys.maxint`; `VLong` is a `long` made as one
      (`4L`, `long(x)`), which stays a `long` whatever its size. */
  datatype Value =
    | VNone
    | VBool(b: bool)
    | VInt(i: int)
    | VLong(l: int)
    | VFloat(f: real)
    | VStr(s: string)
    | VBytes(s: string)
    | VList(items: seq<Value>)
    | VTuple(items: seq<Value>)
    | VDict(entries: map<string, Value>)
    | VArray(rows: seq<Value>)
    | VObject(cls: string)

  /** `sys.maxint` of a 64-bit Linux or macOS build of Python 2: integers
      beyond it (either way) are `long`s, not `int`s. */
  const MaxInt: int := 0x7FFF_FFFF_FFFF_FFFF

  /** An integer Python 2 holds as a machine `int`. */
  predicate MachineInt(i: int)
  {
    -MaxInt - 1 <= i <= MaxInt
  }

  /** `type(v)`. */
  function TypeOf(v: Value): (ty: PyType)
    ensures v.VInt? ==> (ty == IntType <==> MachineInt(v.i)) && (ty == LongType <==> !MachineInt(v.i))
    ensures v.VLong? ==> ty == LongType
  {
    match v
    case VNone => NoneType
    case VBool(_) => BoolType
    case VInt(i) => if MachineInt(i) then IntType else LongType
    case VLong(_) => LongType
    case VFloat(_) => FloatType
    case VStr(_) => StrType
    case VBytes(_) => NpStringType
    case VList(_) => ListType
    case VTuple(_) => TupleType
    case VDict(_) => DictType
    case VArray(_) => ArrayType
    case VObject(c) => ClassType(c)
  }

  /** `str(v) == text` for a text value: Python 2 `str` and `np.string_`
      both print as their own characters. */
  predicate ShowsText(v: Value, text: string)
  {
    v == VStr(text) || v == VBytes(text)
  }

  /** The sentinel an action returns in a slot to leave that hot variable
      alone: any value whose `str` is `$pass`. */
  const PassMarker: string := "$pass"

  predicate IsPass(v: Value)
  {
    ShowsText(v, PassMarker)
  }

  /** Text that Python 2's `str()` can encode: every character is ASCII.
      Qt hands text over as `unicode`, and `str()` of anything else raises
      UnicodeEncodeError. */
  predicate IsAscii(s: string)
  {
    forall i :: 0 <= i < |s| ==> s[i] < 128 as char
  }

  /** `str(v) == str(None)`. */
  predicate ShowsNone(v: Value)
  {
    v == VNone || ShowsText(v, "None")
  }

  /** The numeric value of a Python number (`bool` is a subclass of `int`). */
  function Number(v: Value): Option<real>
  {
    match v
    case VBool(b) => Some(if b then 1.0 else 0.0)
    case VInt(i) => Some(i as real)
    case VLong(l) => Some(l as real)
    case VFloat(f) => Some(f)
    case _ => None
  }

  /** Python `==` at the top level: numbers compare by value, `str` and
      `np.string_` by their characters, everything else structurally. */
  predicate PyEq(a: Value, b: Value)
  {
    if Number(a).Some? && Number(b).Some? then Number(a) == Number(b)
    else if (a.VStr? || a.VBytes?) && (b.VStr? || b.VBytes?) then a.s == b.s
    else a == b
  }

  /** `x in xs` on a list, using `==`. */
  predicate PyIn(x: Value, xs: seq<Value>)
  {
    exists i :: 0 <= i < |xs| && PyEq(x, xs[i])
  }
}
